=== FILE: README.md ===
# AutoWire.DI registration core, in Dafny

AutoWire.DI registers classes marked with `[AutoInject]` or `[KeyedAutoInject]` in a
service collection. It scans an assembly. For each marked, non-abstract class it decides:

- the **contract** (service type) the class is registered as;
- the **key**, if any;
- whether the registration **conflicts** with one already in the collection.

It then appends a service descriptor or throws. The repository has two registrars with
the same shape but different rules, and this project models both:

- `ServiceRegistrar` (`service_registrar.dfy`, module `ServiceRegistrar`):
  - contract: the attribute's override, or else the one implemented interface that no other
    implemented interface extends;
  - an inferred generic contract becomes its open generic definition;
  - the key of a keyed class is its simple name, and every other class gets no key.
- `AutoInjectServiceRegistrations` (`auto_inject_registrations.dfy`, module
  `AutoInjectServiceRegistrations`):
  - contract: the override, or else the one interface the class implements and its base type
    does not;
  - the key is the one the attribute declares.

Shared modules:

- `Wrappers`: `Option` and `Result`.
- `Seqs`: `Where`, `FirstOrDefault` and substring search over sequences.
- `Host`: type ids, lifetimes and descriptors, plus the host's accessor behaviour.
- `Attributes`: the two marker attributes.
- `Reflection`: an explicit type universe in place of `System.Reflection`.
- `Errors`: the exceptions and the duplicate-registration message.
- `Registry`: the descriptor accessors and the uniqueness invariant.
- `Scans`: the fold over an assembly's candidates, for any registration step.
- `Comparison`: where the two registrars agree and where they differ.

Modelling choices:

- **Reflection.** A type is a `TypeId` with what reflection would report:
  - name and full name;
  - whether it is abstract or generic, and its generic definition;
  - its base type;
  - `GetInterfaces()`, the full interface list including inherited and extended ones;
  - the marker declared on the type itself.

  `IsAssignableFrom` is a given relation of the universe rather than something computed
  from the interface lists, so it may also hold through generic variance. The model only
  asks that it contain interface extension and be transitive and antisymmetric.
- **Markers are not inherited.** Both attributes say `Inherited = false`, so a base type's
  marker is never consulted.
- **Facts about real type systems** are explicit predicates that the lemmas assume where they
  need them (`Reflection.WellFormed` and its parts):
  - interface extension is transitive and acyclic;
  - `GetInterfaces()` lists each interface once;
  - a generic definition is its own definition;
  - a keyed marker never carries a key.
- **The service collection** is a sequence of descriptors that only grows at the end.
- **Throwing** becomes a `Result`.
- **The assembly scan** is one recursive fold (module `Scans`) shared by both registrars and
  parameterised by the registration step. It stops at the first exception and keeps the
  appends made before it (the `Scan` datatype records both).
- **The host's descriptor accessors.** `ServiceDescriptor.ImplementationType` and
  `KeyedImplementationType` belong to Microsoft.Extensions.DependencyInjection. What they
  return for a descriptor of the other kind (keyed or unkeyed) is not visible here. It is
  therefore a parameter (`Host.Accessors`): the accessor exposes the implementation type,
  hides it (null), or throws (`Error.AccessorFault`).

The source declares `AutoInjectAttribute` `sealed` (`AutoInjectAttribute.cs:34`), yet
`KeyedAutoInjectAttribute` derives from it (`KeyedAutoInjectAttribute.cs:10`). The model
follows the derivation, which both registrars rely on: a keyed marker is found by a lookup
for the plain marker.

## Model

| member | source | states |
|---|---|---|
| Attributes.AutoInject | src/AutoWire.DI/Attributes/AutoInjectAttribute.cs:53-60 | The plain marker stores the supplied key, lifetime and service type unchanged. By default these are no key, `Scoped` and no service type. |
| Attributes.KeyedAutoInject | src/AutoWire.DI/Attributes/KeyedAutoInjectAttribute.cs:17-19 | The keyed marker always stores no key. It passes lifetime (default `Scoped`) and service type through unchanged. |
| Attributes.ConstructibleIffBuilt | src/AutoWire.DI/Attributes/KeyedAutoInjectAttribute.cs:17-18 | A marker value can come from one of the two constructors exactly when it is not a keyed marker carrying a key. |
| Attributes.Defaults | src/AutoWire.DI/Attributes/AutoInjectAttribute.cs:53-55 | Both constructors with no arguments give no key, `Scoped` and no service type. |
| Reflection.KeyedAutoInjectAttr | src/AutoWire.DI/Attributes/KeyedAutoInjectAttribute.cs:9-10 | The keyed marker lookup finds the type's own marker exactly when that marker is the keyed kind. The plain lookup also finds a keyed marker. |
| Reflection.KeyedDeclaresNoKey | src/AutoWire.DI/Attributes/KeyedAutoInjectAttribute.cs:18 | Reading the declared key of a keyed type always yields no key. |
| Reflection.DeclaredKey | src/AutoWire.DI/ServiceRegistrations/AutoInjectServiceRegistrations.cs:129 | The key read through the plain marker lookup: the key the type's own marker declares, and none for a type without a marker. |
| Errors.KeyText | src/AutoWire.DI/Exceptions/DuplicateServiceRegistrationException.cs:20 | An absent key renders as `null`; a present key renders verbatim. |
| Errors.DuplicateMessage | src/AutoWire.DI/Exceptions/DuplicateServiceRegistrationException.cs:15-21 | The message contains the new class's full name, the contract's full name, the rendered key and the existing class's full name, each in its quoted phrase. |
| Registry.ImplementationType | src/AutoWire.DI/ServiceRegistrations/ServiceRegistrar.cs:151 | An unkeyed descriptor reports its implementation. A keyed one follows the host: exposed, hidden, or a fault. The accessor faults only on a keyed descriptor under a throwing host. |
| Registry.KeyedImplementationType | src/AutoWire.DI/ServiceRegistrations/ServiceRegistrar.cs:154-156 | A keyed descriptor reports its implementation. An unkeyed one follows the host. The accessor faults only on an unkeyed descriptor under a throwing host. |
| Registry.AppendUnique | src/AutoWire.DI/ServiceRegistrations/AutoInjectServiceRegistrations.cs:118-119 | Appending to a unique collection keeps it unique exactly when no earlier descriptor has the same contract and key. Both directions are proved. |
| ServiceRegistrar.Candidates | src/AutoWire.DI/ServiceRegistrations/ServiceRegistrar.cs:37-39 | A type is scanned exactly when it is in the assembly, is not abstract, and carries either marker. |
| ServiceRegistrar.GetKey | src/AutoWire.DI/ServiceRegistrations/ServiceRegistrar.cs:69-78 | The key is present exactly when the keyed marker is, and is then the simple name. A plain marker's declared key is never used. |
| ServiceRegistrar.GetKeyDeclared | src/AutoWire.DI/ServiceRegistrations/ServiceRegistrar.cs:76-77 | Corrected key: the simple name for a keyed marker, and otherwise the key the plain marker declares. |
| ServiceRegistrar.GetKeyDropsDeclaredKey | src/AutoWire.DI/ServiceRegistrations/ServiceRegistrar.cs:69-78 | As written, the key differs from the corrected one exactly when a plain marker declares a key. That key is then dropped, while the corrected derivation uses it. |
| ServiceRegistrar.GetDirectServiceType | src/AutoWire.DI/ServiceRegistrations/ServiceRegistrar.cs:108-121 | The result is one of two cases. With no most-derived interface it is the type itself; otherwise it is the unique interface that no other implemented interface extends. With distinct interfaces it fails, as ambiguous naming the full name, exactly when two such interfaces exist. |
| ServiceRegistrar.MostDerivedExists | src/AutoWire.DI/ServiceRegistrations/ServiceRegistrar.cs:111-113 | Every non-empty interface list has a member that no other member extends, given that interface extension is transitive and acyclic. |
| ServiceRegistrar.ImplementingTypeResolvesToInterface | src/AutoWire.DI/ServiceRegistrations/ServiceRegistrar.cs:115-120 | The inference query never returns the type itself for a type implementing any interface. It returns one of those interfaces or is ambiguous. |
| ServiceRegistrar.ExtendingInterfaceWins | src/AutoWire.DI/ServiceRegistrations/ServiceRegistrar.cs:111-118 | The inference query returns an interface that extends all the type's other interfaces. |
| ServiceRegistrar.DetermineServiceType | src/AutoWire.DI/ServiceRegistrations/ServiceRegistrar.cs:89-97 | An override is the contract verbatim. Otherwise the inferred contract succeeds exactly when inference does, and is replaced by its generic definition when it is generic. Failure happens only without an override and is the ambiguity. |
| ServiceRegistrar.InferredContractIsOpen | src/AutoWire.DI/ServiceRegistrations/ServiceRegistrar.cs:94-95 | An inferred contract is never a closed generic: when generic, it is its own definition. |
| ServiceRegistrar.OverrideKeptWhenClosedGeneric | src/AutoWire.DI/ServiceRegistrations/ServiceRegistrar.cs:93-96 | A closed generic override is kept as given, not normalised. |
| ServiceRegistrar.GetConflictingService | src/AutoWire.DI/ServiceRegistrations/ServiceRegistrar.cs:149-156 | Without a key: the `ImplementationType` of the first descriptor with the same contract, whatever its key. With a key: the `KeyedImplementationType` of the first same-contract descriptor whose implementation declares that key on its marker, or, under a host whose keyed accessor throws on unkeyed descriptors, the fault of the first same-contract descriptor whose `KeyedImplementationType` throws. Nothing is found when no descriptor qualifies. A found type is the implementation of a same-contract descriptor. |
| ServiceRegistrar.ValidateNoConflict | src/AutoWire.DI/ServiceRegistrations/ServiceRegistrar.cs:132-141 | Passes exactly when the conflict check finds nothing. Otherwise it propagates the check's fault, or fails with a duplicate naming the type, the conflicting type, the contract and the key. |
| ServiceRegistrar.Generate | src/AutoWire.DI/ServiceRegistrations/ServiceRegistrar.cs:166-170 | The descriptor carries the given contract, key, implementation and lifetime, and is keyed exactly when a key is given. |
| ServiceRegistrar.GeneratedReportsType | src/AutoWire.DI/ServiceRegistrations/ServiceRegistrar.cs:166-170 | A generated descriptor reports its implementation through the accessor of its own kind, under any host. |
| ServiceRegistrar.RegisterService | src/AutoWire.DI/ServiceRegistrations/ServiceRegistrar.cs:57-67 | Success appends exactly one descriptor (contract, derived key, the type, its marker's lifetime) after the unchanged collection. A duplicate names the type, its contract and its derived key. |
| ServiceRegistrar.RegisterServiceOutcome | src/AutoWire.DI/ServiceRegistrations/ServiceRegistrar.cs:57-67 | A step succeeds exactly when the contract resolves and the conflict check finds nothing. A duplicate's existing type is what the check found. Any other failure is the ambiguity or an accessor fault. |
| ServiceRegistrar.FirstRegistrationSucceeds | src/AutoWire.DI/ServiceRegistrations/ServiceRegistrar.cs:57-67 | Into an empty collection a resolving type always registers, as the single descriptor. |
| ServiceRegistrar.RegisterAll | src/AutoWire.DI/ServiceRegistrations/ServiceRegistrar.cs:41-44 | The scan keeps the existing descriptors as a prefix and appends one descriptor per candidate, in candidate order. It stops without rollback: it reports no failure exactly when every candidate was appended. |
| ServiceRegistrar.ScanStopsAtFirstFailure | src/AutoWire.DI/ServiceRegistrations/ServiceRegistrar.cs:41-44 | A stopped scan reports exactly the error that the first unappended candidate raised against the collection as it then stood. |
| ServiceRegistrar.ScanAppendsEachStep | src/AutoWire.DI/ServiceRegistrations/ServiceRegistrar.cs:41-44 | Each appended descriptor is exactly what `RegisterService` appends for its candidate to the collection as it stood before that candidate. |
| ServiceRegistrar.RegisterFromAssembly | src/AutoWire.DI/ServiceRegistrations/ServiceRegistrar.cs:35-45 | The appended implementations are the assembly's scanned types in `GetTypes()` order, each a type of the assembly passing the filter. A scan that does not fail appends one per candidate. |
| ServiceRegistrar.SameContractUnkeyedIsDuplicate | src/AutoWire.DI/ServiceRegistrations/ServiceRegistrar.cs:150-151 | A second unkeyed type with the same contract fails as a duplicate of the first, under any host. |
| ServiceRegistrar.DistinctKeyedNamesCoexist | src/AutoWire.DI/ServiceRegistrations/ServiceRegistrar.cs:152-156 | Keyed types with different simple names share a contract, and the collection stays unique. |
| ServiceRegistrar.UnkeyedStepKeepsUnique | src/AutoWire.DI/ServiceRegistrations/ServiceRegistrar.cs:150-151 | An unkeyed registration keeps a unique collection unique, provided the host does not hide keyed descriptors and every descriptor already present has an implementation type. |
| ServiceRegistrar.FactoryDescriptorAdmitsDuplicate | src/AutoWire.DI/ServiceRegistrations/ServiceRegistrar.cs:150-151 | As written: after a descriptor without an implementation type (a factory or instance registration), an unkeyed type with the same contract registers beside it, under any host, and the collection is no longer unique. |
| ServiceRegistrar.KeyedNameClashAdmitted | src/AutoWire.DI/ServiceRegistrations/ServiceRegistrar.cs:152-156 | As written: two keyed types with the same simple name and contract both register, leaving two descriptors with equal contract and key. |
| ServiceRegistrar.UnkeyedAfterKeyedRejected | src/AutoWire.DI/ServiceRegistrations/ServiceRegistrar.cs:150-151 | As written: an unkeyed type after a keyed one with the same contract is rejected as a duplicate (exposing host) or faults (throwing host), although the keys differ. |
| ServiceRegistrar.HidingHostAdmitsUnkeyedDuplicates | src/AutoWire.DI/ServiceRegistrations/ServiceRegistrar.cs:150-151 | As written: under a host that hides keyed descriptors, the sequence keyed, unkeyed, unkeyed with one contract registers all three and leaves two descriptors with equal contract and key. |
| ServiceRegistrar.KeyedAfterUnkeyedFaults | src/AutoWire.DI/ServiceRegistrations/ServiceRegistrar.cs:152-156 | As written: a keyed type after an unkeyed one with the same contract faults under a host whose `KeyedImplementationType` throws on unkeyed descriptors. |
| ServiceRegistrar.GetConflictingServiceByKey | src/AutoWire.DI/ServiceRegistrations/ServiceRegistrar.cs:143-156 | Corrected check: finds a type exactly when some descriptor with an implementation has the same contract and the same descriptor key, and it reports that descriptor's implementation. |
| ServiceRegistrar.RegisterServiceByKey | src/AutoWire.DI/ServiceRegistrations/ServiceRegistrar.cs:57-67 | The step with the corrected check. Success appends one descriptor. A duplicate names a same-contract, same-key descriptor already present. Any other failure is the ambiguity. |
| ServiceRegistrar.RegisterServiceByKeyDecides | src/AutoWire.DI/ServiceRegistrations/ServiceRegistrar.cs:143-156 | With the corrected check, a resolving type registers exactly when no descriptor with an implementation shares its contract and key. |
| ServiceRegistrar.RegisterServiceByKeyKeepsUnique | src/AutoWire.DI/ServiceRegistrations/ServiceRegistrar.cs:143-148 | The corrected step keeps a unique collection unique, provided every descriptor already present has an implementation type. |
| ServiceRegistrar.KeyedNameClashRejectedByKey | src/AutoWire.DI/ServiceRegistrations/ServiceRegistrar.cs:152-156 | Corrected: a second keyed type with the same name and contract is rejected, naming the first. |
| ServiceRegistrar.UnkeyedAfterKeyedAdmittedByKey | src/AutoWire.DI/ServiceRegistrations/ServiceRegistrar.cs:150-151 | Corrected: an unkeyed type after a keyed one with the same contract registers. |
| ServiceRegistrar.RegisterAllByKey | src/AutoWire.DI/ServiceRegistrations/ServiceRegistrar.cs:41-44 | The scan with the corrected step keeps the prefix and appends one descriptor per candidate in order, stopping without rollback. |
| ServiceRegistrar.RegisterAllByKeyKeepsUnique | src/AutoWire.DI/ServiceRegistrations/ServiceRegistrar.cs:41-44 | A scan with the corrected step keeps a unique collection of descriptors that all have implementation types unique, whether it finishes or stops. |
| ServiceRegistrar.ScanByKeyAppendsEachStep | src/AutoWire.DI/ServiceRegistrations/ServiceRegistrar.cs:41-44 | With the corrected step, each appended descriptor is exactly what that step appends for its candidate to the collection as it stood before. |
| ServiceRegistrar.RegisterFromAssemblyByKey | src/AutoWire.DI/ServiceRegistrations/ServiceRegistrar.cs:35-45 | With the corrected step, the scan appends the assembly's scanned types in order, and from a unique collection of implementation descriptors it never leaves two descriptors with the same contract and key. |
| AutoInjectServiceRegistrations.Candidates | src/AutoWire.DI/ServiceRegistrations/AutoInjectServiceRegistrations.cs:41-42 | A type is scanned exactly when it is in the assembly, is not abstract, and carries a marker (a keyed one counts). |
| AutoInjectServiceRegistrations.CandidatesInOrder | src/AutoWire.DI/ServiceRegistrations/AutoInjectServiceRegistrations.cs:41-48 | The candidates keep assembly order: those of two consecutive stretches come in stretch order. |
| AutoInjectServiceRegistrations.DetermineDirectServiceType | src/AutoWire.DI/ServiceRegistrations/AutoInjectServiceRegistrations.cs:101-115 | The result is one of two cases. With no direct interface (implemented, with a base type that lacks it) it is the type itself; otherwise it is the unique direct interface. Without a base type nothing is direct. With distinct interfaces it fails, as ambiguous, exactly when two direct interfaces exist. |
| AutoInjectServiceRegistrations.ServiceType | src/AutoWire.DI/ServiceRegistrations/AutoInjectServiceRegistrations.cs:76 | An override is the contract verbatim. Without one, the contract is what the direct-interface query returns: the type itself when no interface is direct, otherwise the single direct interface, and the ambiguity exactly when two distinct interfaces are direct. It is never normalised. |
| AutoInjectServiceRegistrations.GetConflictingService | src/AutoWire.DI/ServiceRegistrations/AutoInjectServiceRegistrations.cs:124-132 | Reports the implementation of the first same-contract descriptor whose implementation declares the key, and none when no descriptor qualifies. When nothing is found, every declaring descriptor was keyed and hidden by the host. A fault requires a throwing host. |
| AutoInjectServiceRegistrations.Generate | src/AutoWire.DI/ServiceRegistrations/AutoInjectServiceRegistrations.cs:141-142 | The descriptor carries the given contract, the marker's key and lifetime, and the implementation; it is keyed exactly when the marker declares a key. |
| AutoInjectServiceRegistrations.GeneratedReportsType | src/AutoWire.DI/ServiceRegistrations/AutoInjectServiceRegistrations.cs:141-142 | An unkeyed generated descriptor reports its implementation through `ImplementationType`. A keyed one does so exactly when the host exposes keyed descriptors to that accessor. |
| AutoInjectServiceRegistrations.RegisterService | src/AutoWire.DI/ServiceRegistrations/AutoInjectServiceRegistrations.cs:69-89 | Success appends exactly one descriptor (contract, declared key, the type, lifetime) after the unchanged collection. A duplicate names the type, its contract and its declared key. |
| AutoInjectServiceRegistrations.RegisterServiceOutcome | src/AutoWire.DI/ServiceRegistrations/AutoInjectServiceRegistrations.cs:79-88 | A step succeeds exactly when the contract resolves and the check finds nothing. A duplicate's existing type declares the same key under the same contract. Other failures are the ambiguity or an accessor fault. |
| AutoInjectServiceRegistrations.FirstRegistrationSucceeds | src/AutoWire.DI/ServiceRegistrations/AutoInjectServiceRegistrations.cs:69-89 | Into an empty collection a resolving type always registers, as the single descriptor. |
| AutoInjectServiceRegistrations.RegisterAll | src/AutoWire.DI/ServiceRegistrations/AutoInjectServiceRegistrations.cs:45-48 | The scan keeps the prefix and appends one descriptor per candidate, in order. It stops without rollback: no failure exactly when all were appended. |
| AutoInjectServiceRegistrations.ScanStopsAtFirstFailure | src/AutoWire.DI/ServiceRegistrations/AutoInjectServiceRegistrations.cs:45-48 | A stopped scan reports the error of the first unappended candidate against the collection as it then stood. |
| AutoInjectServiceRegistrations.ScanAppendsEachStep | src/AutoWire.DI/ServiceRegistrations/AutoInjectServiceRegistrations.cs:45-48 | Each appended descriptor is exactly what `RegisterService` appends for its candidate to the collection as it stood before that candidate. |
| AutoInjectServiceRegistrations.RegisterFromAssembly | src/AutoWire.DI/ServiceRegistrations/AutoInjectServiceRegistrations.cs:38-49 | The appended implementations are the assembly's scanned types in `GetTypes()` order, each a type of the assembly passing the filter. A scan that does not fail appends one per candidate. |
| AutoInjectServiceRegistrations.RegisterServiceKeepsUnique | src/AutoWire.DI/ServiceRegistrations/AutoInjectServiceRegistrations.cs:61-63 | Unless the host hides keyed descriptors, a step keeps (contract, key) pairs distinct, and it keeps every descriptor's key equal to its implementation's declared key. |
| AutoInjectServiceRegistrations.RegisterAllKeepsUnique | src/AutoWire.DI/ServiceRegistrations/AutoInjectServiceRegistrations.cs:30-32 | Unless the host hides keyed descriptors, a scan keeps a unique collection unique, finished or stopped, provided every descriptor already present names an implementation type declaring the descriptor's key. |
| AutoInjectServiceRegistrations.ScanFromEmptyIsUnique | src/AutoWire.DI/ServiceRegistrations/AutoInjectServiceRegistrations.cs:38-49 | Unless the host hides keyed descriptors, scanning into an empty collection never registers a (contract, key) pair twice. |
| AutoInjectServiceRegistrations.HidingHostAdmitsDuplicates | src/AutoWire.DI/ServiceRegistrations/AutoInjectServiceRegistrations.cs:126-129 | Under a host that hides keyed descriptors, two types with the same contract and key both register. The host assumption above is therefore needed. |
| AutoInjectServiceRegistrations.FactoryDescriptorAdmitsDuplicate | src/AutoWire.DI/ServiceRegistrations/AutoInjectServiceRegistrations.cs:126-129 | After a descriptor without an implementation type (a factory or instance registration), an unkeyed type with the same contract registers beside it, and the collection is no longer unique. |
| AutoInjectServiceRegistrations.NoBaseTypeSelfRegisters | src/AutoWire.DI/ServiceRegistrations/AutoInjectServiceRegistrations.cs:105 | A type without a base type registers as itself, whatever it implements. |
| AutoInjectServiceRegistrations.InheritedInterfacesSelfRegister | src/AutoWire.DI/ServiceRegistrations/AutoInjectServiceRegistrations.cs:104-111 | A derived type adding no interface registers as itself, not as its base type's interface. |
| AutoInjectServiceRegistrations.OwnInterfaceResolves | src/AutoWire.DI/ServiceRegistrations/AutoInjectServiceRegistrations.cs:104-112 | A type adding exactly one interface over its base type registers as that interface. |
| AutoInjectServiceRegistrations.SameKeyIsDuplicate | src/AutoWire.DI/ServiceRegistrations/AutoInjectServiceRegistrations.cs:79-83 | A second type with the same contract and key fails as a duplicate of the first, when unkeyed or under an exposing host. |
| AutoInjectServiceRegistrations.DistinctKeysCoexist | src/AutoWire.DI/ServiceRegistrations/AutoInjectServiceRegistrations.cs:126-129 | Types with the same contract and different declared keys both register, unless the first is keyed and the host throws. |
| AutoInjectServiceRegistrations.ThrowingHostFaultsAfterKeyed | src/AutoWire.DI/ServiceRegistrations/AutoInjectServiceRegistrations.cs:128 | Under a throwing host, any registration after a keyed one with the same contract faults. |
| AutoInjectServiceRegistrations.ExtendedInterfaceIsAmbiguous | src/AutoWire.DI/ServiceRegistrations/AutoInjectServiceRegistrations.cs:104-113 | As written: a type implementing `IMyService : IBaseService` over a base type without interfaces is ambiguous. |
| AutoInjectServiceRegistrations.DetermineMostDerivedServiceType | src/AutoWire.DI/ServiceRegistrations/AutoInjectServiceRegistrations.cs:101-115 | Corrected query: the type itself exactly when no direct interface is most derived, otherwise the unique direct interface that no other direct interface extends. With distinct interfaces it fails, as the ambiguity, exactly when two such interfaces exist. |
| AutoInjectServiceRegistrations.MostDerivedDirectResolves | src/AutoWire.DI/ServiceRegistrations/AutoInjectServiceRegistrations.cs:104-112 | Corrected: a type adding one interface, together with interfaces that it extends, registers as that interface. |
| AutoInjectServiceRegistrations.MostDerivedAgreesWithoutExtension | src/AutoWire.DI/ServiceRegistrations/AutoInjectServiceRegistrations.cs:104-106 | When no direct interface extends another, the corrected query and the query as written agree. |
| AutoInjectServiceRegistrations.ServiceTypeMostDerived | src/AutoWire.DI/ServiceRegistrations/AutoInjectServiceRegistrations.cs:76 | The contract with the corrected query. An override is used verbatim. Without one, the contract is what the corrected query returns: the type itself when no direct interface is most derived, otherwise the single most-derived direct interface, and the ambiguity exactly when two distinct ones exist. |
| AutoInjectServiceRegistrations.ExtendingInterfaceResolvesMostDerived | src/AutoWire.DI/ServiceRegistrations/AutoInjectServiceRegistrations.cs:104-113 | In the `IMyService : IBaseService` case, the corrected contract is `IMyService`, while the contract as written is ambiguous. |
| Scans.Fold | src/AutoWire.DI/ServiceRegistrations/ServiceRegistrar.cs:41-44 | For any step that appends one descriptor for its candidate, the scan keeps the existing collection as a prefix and appends one descriptor per candidate in order. It reports no failure exactly when every candidate was appended. |
| Scans.FoldStepsInOrder | src/AutoWire.DI/ServiceRegistrations/ServiceRegistrar.cs:41-44 | Each descriptor the scan appends is exactly the step's result for its candidate against the collection as it stood before. |
| Scans.FoldStopsAtFirstFailure | src/AutoWire.DI/ServiceRegistrations/ServiceRegistrar.cs:41-44 | A stopped scan reports exactly the error the step raised for the first unappended candidate against the collection as it then stood. |
| Scans.FoldPreserves | src/AutoWire.DI/ServiceRegistrations/ServiceRegistrar.cs:41-44 | A property of the collection that every successful step keeps holds after the scan, whether it finishes or stops. |
| Comparison.CandidateFiltersAgree | src/AutoWire.DI/ServiceRegistrations/ServiceRegistrar.cs:37-39 | Both registrars scan the same types in the same order. |
| Comparison.MarkerNotInherited | src/AutoWire.DI/Attributes/AutoInjectAttribute.cs:33 | Changing only what a type's base type declares changes neither whether either registrar scans the type nor the key either one files it under. |
| Comparison.KeyDerivationsAgreeIff | src/AutoWire.DI/ServiceRegistrations/ServiceRegistrar.cs:69-78 | The two registrars give a type the same key exactly when it carries a plain marker without a key. |
| Comparison.OverrideAgrees | src/AutoWire.DI/ServiceRegistrations/ServiceRegistrar.cs:93-96 | With an override, both registrars use it as the contract. |
| Comparison.ContractRulesPart | src/AutoWire.DI/ServiceRegistrations/ServiceRegistrar.cs:111-118 | On `IMyService : IBaseService` over a base type without interfaces, the first registrar picks `IMyService` and the second is ambiguous. |

## Left out

- Reflection is not modelled. `Assembly.GetTypes`, `GetCustomAttribute`, `GetInterfaces`, `IsAssignableFrom` and `GetGenericTypeDefinition` are replaced by the type universe; the facts a real type system guarantees are explicit predicates.
- Reflection.Assignable: the rules of `IsAssignableFrom`, generic variance included, are not derived. It is a given relation, constrained only to contain interface extension and to be transitive and antisymmetric.
- A class carrying both `[AutoInject]` and `[KeyedAutoInject]` is not modelled. `GetCustomAttribute<AutoInjectAttribute>()` then throws `AmbiguousMatchException` in the scan filter (`ServiceRegistrar.cs:39`, `AutoInjectServiceRegistrations.cs:42`). The filter is lazy, so the throw comes mid-scan, after earlier registrations. The model's type carries at most one marker.
- `ServiceDescriptor` and `IServiceCollection` are not part of this model. They come from Microsoft.Extensions.DependencyInjection. What the two implementation accessors return for a descriptor of the other kind is a parameter.
- Descriptors added by other code, such as instance or factory registrations, are not modelled. They appear only as descriptors without an implementation type.
- `RegisterService` on an unmarked type dereferences null in both registrars. This is a precondition (`IsMarked`), not an error.
- `ServiceCollectionExtensions` is not part of this model. It only passes the calling assembly to the second registrar.
- The Roslyn analyzer is not part of this model.
- The text of the ambiguity message and the exception class hierarchy are not modelled. `Error.Ambiguous` carries the full name only.
- Object construction, lifetimes at resolution time and the built provider are not modelled.
- The attributes' read-only properties are not modelled as such. Immutability is what the datatype gives for free.
- The constructors of both registrars are not modelled. They only store the collection, which is a parameter here.
- Errors.DuplicateMessage: states that each interpolated phrase occurs in the message, not the full text character by character.
- ServiceRegistrar.UnkeyedStepKeepsUnique: assumes every existing descriptor has an implementation type. A factory or instance descriptor with the same contract makes `ImplementationType` null, so no conflict is found and a duplicate pair is added (`ServiceRegistrar.FactoryDescriptorAdmitsDuplicate`).
- ServiceRegistrar.RegisterServiceByKeyKeepsUnique: assumes every existing descriptor has an implementation type, as the corrected check only compares against such descriptors.
- ServiceRegistrar.RegisterAllByKeyKeepsUnique: assumes the starting collection is unique and all its descriptors have implementation types, for the same reason.
- AutoInjectServiceRegistrations.RegisterAllKeepsUnique: assumes every descriptor in the starting collection names an implementation type declaring its key, which holds for collections this registrar builds. A factory or instance descriptor breaks it (`AutoInjectServiceRegistrations.FactoryDescriptorAdmitsDuplicate`).
- AutoInjectServiceRegistrations.RegisterServiceKeepsUnique: assumes that the host does not hide keyed descriptors from `ImplementationType`. It also assumes every existing descriptor names a type declaring its key, which holds for collections this registrar builds.
- The tests at `AutoInjectServiceRegistrationsTests.cs:10-44` expect `IMyService` for `MyService : IMyService : IBaseService`. They follow the first registrar's rule. The model follows the code, which is ambiguous there (third row of the findings).
- The test at `AutoInjectServiceRegistrationsTests.cs:85-103` expects `IMyService` for `MyServiceWithoutDirectInterface : MyServiceWithInterface`, a class adding no interface to its base. The code registers that class as itself (`AutoInjectServiceRegistrations.InheritedInterfacesSelfRegister`), and so does the corrected query. The model follows the code.

## Findings

| source | as written | input that shows it | evidently intended | confidence | as-written member | corrected member |
|---|---|---|---|---|---|---|
| src/AutoWire.DI/ServiceRegistrations/ServiceRegistrar.cs:152-156 | The keyed branch compares the key with the key declared on the existing implementation's marker. A keyed marker never declares one. | Two `[KeyedAutoInject]` classes with the same simple name (in different namespaces) and the same contract. Both register, under equal contract and key. | A conflict is a descriptor with the same contract and the same descriptor key. | medium: not executed | ServiceRegistrar.KeyedNameClashAdmitted | ServiceRegistrar.KeyedNameClashRejectedByKey |
| src/AutoWire.DI/ServiceRegistrations/ServiceRegistrar.cs:150-151 | The unkeyed branch takes the first descriptor with the same contract, whatever its key. | A `[KeyedAutoInject]` class, then an `[AutoInject]` class, with one contract. The second is rejected as a duplicate (or the accessor throws), although the keys differ. In the reverse order, a host whose `KeyedImplementationType` throws on unkeyed descriptors makes the keyed registration fault. Under a host that hides keyed descriptors, the same stop at the keyed descriptor lets a keyed, unkeyed, unkeyed sequence register two descriptors with equal contract and key. | Only an unkeyed descriptor with the same contract conflicts. | medium: not executed | ServiceRegistrar.UnkeyedAfterKeyedRejected, ServiceRegistrar.KeyedAfterUnkeyedFaults, ServiceRegistrar.HidingHostAdmitsUnkeyedDuplicates | ServiceRegistrar.UnkeyedAfterKeyedAdmittedByKey |
| src/AutoWire.DI/ServiceRegistrations/AutoInjectServiceRegistrations.cs:104-106 | Every interface the base type lacks is direct, including interfaces reached only through another interface. | `MyService : IMyService` with `IMyService : IBaseService`. Two direct interfaces, so the registrar throws the ambiguity; the tests expect `IMyService`. | Interfaces extended by another direct interface are set aside. | medium: not executed | AutoInjectServiceRegistrations.ExtendedInterfaceIsAmbiguous | AutoInjectServiceRegistrations.ExtendingInterfaceResolvesMostDerived |
| src/AutoWire.DI/ServiceRegistrations/ServiceRegistrar.cs:76-77 | After the keyed lookup at :71 has found nothing, the fallback looks up `KeyedAutoInjectAttribute` again, which can only be null. | `[AutoInject(key: "a")]` on a class: this registrar registers it with no key, and the second registrar uses `a`. | The fallback reads the plain marker, `GetCustomAttribute<AutoInjectAttribute>()?.Key`, so a declared key is used. | low: not executed | ServiceRegistrar.GetKeyDropsDeclaredKey | ServiceRegistrar.GetKeyDeclared |

=== FILE: attributes.dfy ===
/** The two marker attributes, `[AutoInject]` and `[KeyedAutoInject]`, as
    immutable values. The keyed marker derives from the plain one, so a single
    datatype with a `keyed` flag represents both. */
module Attributes {
  import opened Wrappers
  import opened Host

  /** The read-only metadata of a marker: `Key`, `Lifetime`, `ServiceType`,
      and whether the instance is a `KeyedAutoInjectAttribute`. */
  datatype Attr = Attr(
    key: Option<string>,
    lifetime: Lifetime,
    serviceType: Option<TypeId>,
    keyed: bool)

  /** `new AutoInjectAttribute(key, lifetime, serviceType)` with its defaults:
      no key, `Scoped`, no service type. The arguments are stored unchanged. */
  function AutoInject(
    key: Option<string> := None,
    lifetime: Lifetime := Scoped,
    serviceType: Option<TypeId> := None): (a: Attr)
    ensures a.key == key && a.lifetime == lifetime && a.serviceType == serviceType
    ensures !a.keyed
  {
    Attr(key, lifetime, serviceType, false)
  }

  /** `new KeyedAutoInjectAttribute(lifetime, serviceType)`: it passes a null
      key to the base constructor, so the stored key is always absent. */
  function KeyedAutoInject(
    lifetime: Lifetime := Scoped,
    serviceType: Option<TypeId> := None): (a: Attr)
    ensures a.key.None?
    ensures a.lifetime == lifetime && a.serviceType == serviceType
    ensures a.keyed
  {
    Attr(None, lifetime, serviceType, true)
  }

  /** A marker that one of the two constructors can produce: a keyed marker
      never carries a key. */
  predicate Constructible(a: Attr) {
    a.keyed ==> a.key.None?
  }

  /** Every value the constructors build is constructible, and every
      constructible value is built by one of them. */
  lemma ConstructibleIffBuilt(a: Attr)
    ensures Constructible(a) <==>
      (!a.keyed && a == AutoInject(a.key, a.lifetime, a.serviceType)) ||
      (a.keyed && a == KeyedAutoInject(a.lifetime, a.serviceType))
  {
  }

  /** The defaults of both constructors. */
  lemma Defaults()
    ensures AutoInject() == Attr(None, Scoped, None, false)
    ensures KeyedAutoInject() == Attr(None, Scoped, None, true)
  {
  }
}

=== FILE: auto_inject_registrations.dfy ===
/** The registrar `AutoInjectServiceRegistrations`: the contract is the
    override, or the single interface the type implements that its base type
    does not; the key is the marker's declared key; a conflict is a
    same-contract descriptor whose implementation declares the same key. */
module AutoInjectServiceRegistrations {
  import opened Wrappers
  import opened Seqs
  import opened Host
  import opened Attributes
  import opened Reflection
  import opened Errors
  import opened Registry
  import opened Scans

  /** The scan filter: not abstract and carrying the marker (a keyed marker
      counts, being an `AutoInjectAttribute` too). */
  predicate IsCandidate(u: Universe, t: TypeId) {
    !IsAbstract(u, t) && AutoInjectAttr(u, t).Some?
  }

  /** The types of the assembly that the scan registers, in assembly order. */
  function Candidates(u: Universe, types: seq<TypeId>): (r: seq<TypeId>)
    ensures forall t :: t in r <==> t in types && !IsAbstract(u, t) && IsMarked(u, t)
  {
    Filter(types, t => IsCandidate(u, t))
  }

  /** The candidates of two consecutive stretches of the assembly are those
      of the first stretch followed by those of the second. */
  lemma CandidatesInOrder(u: Universe, a: seq<TypeId>, b: seq<TypeId>)
    ensures Candidates(u, a + b) == Candidates(u, a) + Candidates(u, b)
  {
    FilterAppend(a, b, t => IsCandidate(u, t));
  }

  /** The filter of the direct-interface query: `i` is one of the type's
      interfaces, the type has a base type, and the base type does not
      implement `i`. Without a base type nothing is direct. */
  predicate Direct(u: Universe, t: TypeId, i: TypeId) {
    i in Interfaces(u, t) &&
    match Base(u, t)
    case None => false
    case Some(b) => i !in Interfaces(u, b)
  }

  /** `DetermineDirectServiceType(type, implementedInterfaces)`: no direct
      interface gives the type itself, exactly one gives that interface, two
      or more fail as ambiguous. */
  function DetermineDirectServiceType(u: Universe, t: TypeId, ifs: seq<TypeId>): (r: Result<TypeId, Error>)
    ensures r.Success? ==>
      || (r.value == t && forall i :: i in ifs ==> !Direct(u, t, i))
      || (r.value in ifs && Direct(u, t, r.value) && forall j :: j in ifs && Direct(u, t, j) ==> j == r.value)
    ensures (forall i :: i in ifs ==> !Direct(u, t, i)) ==> r == Success(t)
    ensures r.Failure? ==> r.error == Ambiguous(FullName(u, t))
    ensures NoDup(ifs) ==>
      (r.Failure? <==> exists i, j :: i in ifs && j in ifs && i != j && Direct(u, t, i) && Direct(u, t, j))
  {
    var p := (i: TypeId) => Direct(u, t, i);
    var direct := Filter(ifs, p);
    if |direct| == 0 then Success(t)
    else if |direct| == 1 then
      assert direct[0] in direct;
      Success(direct[0])
    else
      assert direct[0] in direct && direct[1] in direct;
      assert NoDup(ifs) ==> direct[0] != direct[1] by {
        if NoDup(ifs) {
          FilterNoDup(ifs, p);
        }
      }
      Failure(Ambiguous(FullName(u, t)))
  }

  /** `autoInjectAttribute.ServiceType ?? DetermineDirectServiceType(...)`:
      the override wins outright; otherwise the contract is inferred from the
      interfaces and is never normalised to a generic definition, so it is
      always the override, the type itself, or one of its interfaces. */
  function ServiceType(u: Universe, t: TypeId): (r: Result<TypeId, Error>)
    requires IsMarked(u, t)
    ensures AutoInjectAttr(u, t).value.serviceType.Some? ==>
      r == Success(AutoInjectAttr(u, t).value.serviceType.value)
    ensures r.Success? ==>
      r.value == t || r.value in Interfaces(u, t) || Some(r.value) == AutoInjectAttr(u, t).value.serviceType
    ensures r.Failure? ==> AutoInjectAttr(u, t).value.serviceType.None? && r.error == Ambiguous(FullName(u, t))
    ensures AutoInjectAttr(u, t).value.serviceType.None? ==>
      (r.Success? <==> DetermineDirectServiceType(u, t, Interfaces(u, t)).Success?) &&
      (r.Success? ==> r.value == DetermineDirectServiceType(u, t, Interfaces(u, t)).value)
    ensures AutoInjectAttr(u, t).value.serviceType.None? && (forall i :: i in Interfaces(u, t) ==> !Direct(u, t, i)) ==>
      r == Success(t)
    ensures AutoInjectAttr(u, t).value.serviceType.None? && r.Success? && r.value != t ==>
      r.value in Interfaces(u, t) && Direct(u, t, r.value) &&
      forall j :: j in Interfaces(u, t) && Direct(u, t, j) ==> j == r.value
    ensures AutoInjectAttr(u, t).value.serviceType.None? && NoDup(Interfaces(u, t)) ==>
      (r.Failure? <==> exists i, j :: i in Interfaces(u, t) && j in Interfaces(u, t) && i != j &&
                                      Direct(u, t, i) && Direct(u, t, j))
  {
    match AutoInjectAttr(u, t).value.serviceType
    case Some(s) => Success(s)
    case None => DetermineDirectServiceType(u, t, Interfaces(u, t))
  }

  /** The `FirstOrDefault` predicate of `GetConflictingService`, made total:
      the scan stops at a descriptor with the same contract whose
      `ImplementationType` either throws or names a type whose declared key
      equals `key`. */
  predicate Stops(u: Universe, h: Accessors, st: TypeId, key: Option<string>, d: Descriptor) {
    d.contract == st &&
    match ImplementationType(h, d)
    case Failure(_) => true
    case Success(it) => it.Some? && DeclaredKey(u, it.value) == key
  }

  /** `GetConflictingService(serviceType, key)`: the implementation of the
      first descriptor, in insertion order, where the scan stops. */
  function GetConflictingService(
    u: Universe, h: Accessors, reg: seq<Descriptor>, st: TypeId, key: Option<string>): (r: Result<Option<TypeId>, Error>)
    ensures forall k :: 0 <= k < |reg| && Stops(u, h, st, key, reg[k]) &&
                        (forall j :: 0 <= j < k ==> !Stops(u, h, st, key, reg[j]))
                        ==> r == ImplementationType(h, reg[k])
    ensures (forall k :: 0 <= k < |reg| ==> !Stops(u, h, st, key, reg[k])) ==> r == Success(None)
    ensures r.Success? && r.value.Some? ==>
      exists k :: 0 <= k < |reg| && reg[k].contract == st && reg[k].impl == r.value && DeclaredKey(u, r.value.value) == key
    ensures r == Success(None) ==>
      forall k :: 0 <= k < |reg| && reg[k].contract == st && reg[k].impl.Some? &&
                  DeclaredKey(u, reg[k].impl.value) == key
                  ==> reg[k].IsKeyed() && h.plainOnKeyed == Hides
    ensures r.Failure? ==> r.error == AccessorFault && h.plainOnKeyed == Throws
  {
    var i := FirstIndex(reg, d => Stops(u, h, st, key, d));
    if i == |reg| then Success(None)
    else
      assert Stops(u, h, st, key, reg[i]);
      ImplementationType(h, reg[i])
  }

  /** `Generate(serviceType, implementationType, attribute)`: a keyed
      descriptor exactly when the marker declares a key, registering `t` for
      the contract with the marker's key and lifetime. */
  function Generate(st: TypeId, t: TypeId, a: Attr): (d: Descriptor)
    ensures d.IsKeyed() <==> a.key.Some?
    ensures d.contract == st && d.key == a.key && d.impl == Some(t) && d.lifetime == a.lifetime
  {
    Descriptor(st, a.key, Some(t), a.lifetime)
  }

  /** The conflict check reads `ImplementationType` on every descriptor:
      a generated unkeyed descriptor reports its type, and a generated keyed
      one reports it exactly when the host exposes it on keyed descriptors. */
  lemma GeneratedReportsType(h: Accessors, st: TypeId, t: TypeId, a: Attr)
    ensures a.key.None? ==> ImplementationType(h, Generate(st, t, a)) == Success(Some(t))
    ensures a.key.Some? ==>
      (ImplementationType(h, Generate(st, t, a)) == Success(Some(t)) <==> h.plainOnKeyed == Exposes)
  {
  }

  /** `RegisterService(type)` for a marked type: a success appends exactly
      one descriptor carrying the contract, the declared key, the type and the
      declared lifetime, and leaves the earlier descriptors as they were; a
      duplicate names the type, its contract and its declared key. */
  function RegisterService(u: Universe, h: Accessors, reg: seq<Descriptor>, t: TypeId): (r: Result<seq<Descriptor>, Error>)
    requires IsMarked(u, t)
    ensures r.Success? ==>
      && ServiceType(u, t).Success?
      && r.value == reg + [Descriptor(ServiceType(u, t).value, DeclaredKey(u, t), Some(t), AutoInjectAttr(u, t).value.lifetime)]
    ensures r.Failure? && r.error.Duplicate? ==>
      r.error.newType == t && ServiceType(u, t) == Success(r.error.contract) && r.error.key == DeclaredKey(u, t)
  {
    var a := AutoInjectAttr(u, t).value;
    var st :- ServiceType(u, t);
    var conflicting :- GetConflictingService(u, h, reg, st, a.key);
    if conflicting.Some? then Failure(Duplicate(t, conflicting.value, st, a.key))
    else Success(reg + [Generate(st, t, a)])
  }

  /** How the conflict check decides a step: the step succeeds exactly when
      the contract resolves and the check finds nothing; a duplicate's
      existing type is the implementation of a descriptor with the same
      contract whose declared key is the new type's; any other failure is the
      ambiguity or the host's fault. */
  lemma RegisterServiceOutcome(u: Universe, h: Accessors, reg: seq<Descriptor>, t: TypeId)
    requires IsMarked(u, t)
    ensures RegisterService(u, h, reg, t).Success? <==>
      ServiceType(u, t).Success? &&
      GetConflictingService(u, h, reg, ServiceType(u, t).value, DeclaredKey(u, t)) == Success(None)
    ensures RegisterService(u, h, reg, t).Failure? && RegisterService(u, h, reg, t).error.Duplicate? ==>
      var e := RegisterService(u, h, reg, t).error;
      exists k :: 0 <= k < |reg| && reg[k].contract == e.contract &&
        reg[k].impl == Some(e.existing) && DeclaredKey(u, e.existing) == DeclaredKey(u, t)
    ensures RegisterService(u, h, reg, t).Failure? && !RegisterService(u, h, reg, t).error.Duplicate? ==>
      RegisterService(u, h, reg, t).error in {Ambiguous(FullName(u, t)), AccessorFault}
  {
  }

  /** A successful step grows the collection by one descriptor for the
      type, after the untouched earlier ones. */
  lemma RegisterServiceAppends(u: Universe, h: Accessors, reg: seq<Descriptor>, t: TypeId)
    requires IsMarked(u, t)
    ensures RegisterService(u, h, reg, t).Success? ==>
      var next := RegisterService(u, h, reg, t).value;
      |next| == |reg| + 1 && next[..|reg|] == reg && next[|reg|].impl == Some(t)
  {
  }

  /** Into an empty collection a type whose contract resolves always
      registers, as the single descriptor for it. */
  lemma FirstRegistrationSucceeds(u: Universe, h: Accessors, t: TypeId)
    requires IsMarked(u, t) && ServiceType(u, t).Success?
    ensures RegisterService(u, h, [], t)
      == Success([Descriptor(ServiceType(u, t).value, DeclaredKey(u, t), Some(t), AutoInjectAttr(u, t).value.lifetime)])
  {
    assert GetConflictingService(u, h, [], ServiceType(u, t).value, DeclaredKey(u, t)) == Success(None);
    RegisterServiceOutcome(u, h, [], t);
    var d := Descriptor(ServiceType(u, t).value, DeclaredKey(u, t), Some(t), AutoInjectAttr(u, t).value.lifetime);
    assert RegisterService(u, h, [], t).value == [] + [d];
    assert [] + [d] == [d];
  }

  /** `RegisterService` as the step of the scan over an assembly. */
  function RegisterStep(u: Universe, h: Accessors): Step {
    (reg: seq<Descriptor>, t: TypeId) requires IsMarked(u, t) => RegisterService(u, h, reg, t)
  }

  /** On the candidates the step is `RegisterService`, which appends one
      descriptor for the candidate. */
  lemma RegisterStepAppends(u: Universe, h: Accessors, cands: seq<TypeId>)
    requires forall t :: t in cands ==> IsMarked(u, t)
    ensures Appends(RegisterStep(u, h), cands)
  {
    forall reg: seq<Descriptor>, t: TypeId | t in cands
      ensures RegisterStep(u, h).requires(reg, t)
      ensures RegisterStep(u, h)(reg, t) == RegisterService(u, h, reg, t)
    {
      RegisterServiceAppends(u, h, reg, t);
    }
  }

  /** The `foreach` over the candidates: each is registered in turn, and the
      first failure stops the scan without undoing earlier appends. */
  function RegisterAll(u: Universe, h: Accessors, reg: seq<Descriptor>, cands: seq<TypeId>): (r: Scan)
    requires forall t :: t in cands ==> IsMarked(u, t)
    ensures |reg| <= |r.registry| <= |reg| + |cands| && r.registry[..|reg|] == reg
    ensures forall k :: |reg| <= k < |r.registry| ==> r.registry[k].impl == Some(cands[k - |reg|])
    ensures r.failure.None? <==> |r.registry| == |reg| + |cands|
  {
    RegisterStepAppends(u, h, cands);
    Fold(RegisterStep(u, h), reg, cands)
  }

  /** A scan that stops does so at the candidate right after the last one it
      appended, and reports exactly the error that candidate's step raised
      against the collection as it then stood. */
  lemma ScanStopsAtFirstFailure(u: Universe, h: Accessors, reg: seq<Descriptor>, cands: seq<TypeId>)
    requires forall t :: t in cands ==> IsMarked(u, t)
    ensures var r := RegisterAll(u, h, reg, cands);
      r.failure.Some? ==>
        RegisterService(u, h, r.registry, cands[|r.registry| - |reg|]) == Failure(r.failure.value)
  {
    RegisterStepAppends(u, h, cands);
    var r := RegisterAll(u, h, reg, cands);
    assert r == Fold(RegisterStep(u, h), reg, cands);
    FoldStopsAtFirstFailure(RegisterStep(u, h), reg, cands);
    if r.failure.Some? {
      var t := cands[|r.registry| - |reg|];
      assert RegisterStep(u, h)(r.registry, t) == RegisterService(u, h, r.registry, t);
      assert RegisterService(u, h, r.registry, t) == Failure(r.failure.value);
    }
  }

  /** Every descriptor a scan appends is what `RegisterService` produced for
      its candidate against the collection as it stood just before. */
  lemma ScanAppendsEachStep(u: Universe, h: Accessors, reg: seq<Descriptor>, cands: seq<TypeId>, k: nat)
    requires forall t :: t in cands ==> IsMarked(u, t)
    requires |reg| <= k < |RegisterAll(u, h, reg, cands).registry|
    ensures var r := RegisterAll(u, h, reg, cands).registry;
      RegisterService(u, h, r[..k], cands[k - |reg|]) == Success(r[..k + 1])
  {
    RegisterStepAppends(u, h, cands);
    FoldStepsInOrder(RegisterStep(u, h), reg, cands, k);
  }

  /** `RegisterFromAssembly(assembly)`, the assembly given as its types in
      `GetTypes()` order: the candidates are registered in that order, and a
      scan without failure registers all of them. */
  function RegisterFromAssembly(u: Universe, h: Accessors, reg: seq<Descriptor>, types: seq<TypeId>): (r: Scan)
    ensures |reg| <= |r.registry| <= |reg| + |Candidates(u, types)| && r.registry[..|reg|] == reg
    ensures forall k :: |reg| <= k < |r.registry| ==> r.registry[k].impl == Some(Candidates(u, types)[k - |reg|])
    ensures forall k :: |reg| <= k < |r.registry| ==>
      r.registry[k].impl.Some? && r.registry[k].impl.value in types && IsCandidate(u, r.registry[k].impl.value)
    ensures r.failure.None? ==> |r.registry| == |reg| + |Candidates(u, types)|
  {
    var cands := Candidates(u, types);
    var r := RegisterAll(u, h, reg, cands);
    forall k | |reg| <= k < |r.registry|
      ensures r.registry[k].impl.Some? && r.registry[k].impl.value in types && IsCandidate(u, r.registry[k].impl.value)
    {
      assert r.registry[k].impl == Some(cands[k - |reg|]) && cands[k - |reg|] in cands;
    }
    r
  }

  // ---------------------------------------------------------------------
  // The uniqueness invariant

  /** A successful step keeps every (contract, key) pair distinct, provided
      the host does not hide keyed descriptors from `ImplementationType` and
      every descriptor already present names a type declaring its key. */
  lemma {:induction false} RegisterServiceKeepsUnique(u: Universe, h: Accessors, reg: seq<Descriptor>, t: TypeId)
    requires IsMarked(u, t)
    requires h.plainOnKeyed != Hides
    requires Unique(reg) && KeysDeclared(u, reg)
    ensures RegisterService(u, h, reg, t).Success? ==>
      Unique(RegisterService(u, h, reg, t).value) && KeysDeclared(u, RegisterService(u, h, reg, t).value)
  {
    var r := RegisterService(u, h, reg, t);
    if r.Success? {
      var st := ServiceType(u, t).value;
      var key := DeclaredKey(u, t);
      var d := Descriptor(st, key, Some(t), AutoInjectAttr(u, t).value.lifetime);
      assert r.value == reg + [d];
      assert GetConflictingService(u, h, reg, st, key) == Success(None);
      forall i | 0 <= i < |reg| ensures reg[i].contract != st || reg[i].key != key {
      }
      AppendUnique(reg, d);
      forall i | 0 <= i < |r.value|
        ensures r.value[i].impl.Some? && r.value[i].key == DeclaredKey(u, r.value[i].impl.value)
      {
        if i < |reg| {
          assert r.value[i] == reg[i];
        } else {
          assert r.value[i] == d;
        }
      }
    }
  }

  /** The invariant survives a whole scan, whether it finishes or stops. */
  lemma RegisterAllKeepsUnique(u: Universe, h: Accessors, reg: seq<Descriptor>, cands: seq<TypeId>)
    requires forall t :: t in cands ==> IsMarked(u, t)
    requires h.plainOnKeyed != Hides
    requires Unique(reg) && KeysDeclared(u, reg)
    ensures Unique(RegisterAll(u, h, reg, cands).registry)
    ensures KeysDeclared(u, RegisterAll(u, h, reg, cands).registry)
  {
    RegisterStepAppends(u, h, cands);
    var step := RegisterStep(u, h);
    var inv := (r: seq<Descriptor>) => Unique(r) && KeysDeclared(u, r);
    forall r: seq<Descriptor>, t: TypeId | t in cands && inv(r) && step.requires(r, t) && step(r, t).Success?
      ensures inv(step(r, t).value)
    {
      RegisterServiceKeepsUnique(u, h, r, t);
    }
    FoldPreserves(step, inv, reg, cands);
  }

  /** A scan into an empty collection never registers the same (contract,
      key) pair twice, whether it finishes or stops early. */
  lemma ScanFromEmptyIsUnique(u: Universe, h: Accessors, types: seq<TypeId>)
    requires h.plainOnKeyed != Hides
    ensures Unique(RegisterFromAssembly(u, h, [], types).registry)
  {
    RegisterAllKeepsUnique(u, h, [], Candidates(u, types));
  }

  /** The `KeysDeclared` precondition above is needed: a descriptor
      registered by other code with a factory or an instance has no
      implementation type, so the check skips it, and an unkeyed type with the
      same contract registers beside it, under the same contract and key. */
  lemma FactoryDescriptorAdmitsDuplicate(u: Universe, h: Accessors, t: TypeId, c: TypeId, lt: Lifetime)
    requires IsMarked(u, t) && DeclaredKey(u, t).None?
    requires ServiceType(u, t) == Success(c)
    ensures RegisterService(u, h, [Descriptor(c, None, None, lt)], t).Success?
    ensures !Unique(RegisterService(u, h, [Descriptor(c, None, None, lt)], t).value)
  {
    var reg := [Descriptor(c, None, None, lt)];
    assert GetConflictingService(u, h, reg, c, None) == Success(None);
    RegisterServiceOutcome(u, h, reg, t);
    var r := RegisterService(u, h, reg, t).value;
    assert r[0].contract == r[1].contract && r[0].key == r[1].key;
  }

  /** The host assumption is needed: a host that hides keyed descriptors from
      `ImplementationType` lets a second type with the same contract and the
      same key through. */
  lemma HidingHostAdmitsDuplicates(u: Universe, h: Accessors, a: TypeId, b: TypeId, c: TypeId, k: string)
    requires IsMarked(u, a) && IsMarked(u, b)
    requires DeclaredKey(u, a) == Some(k) && DeclaredKey(u, b) == Some(k)
    requires ServiceType(u, a) == Success(c) && ServiceType(u, b) == Success(c)
    requires h.plainOnKeyed == Hides
    ensures RegisterService(u, h, [], a).Success?
    ensures RegisterService(u, h, RegisterService(u, h, [], a).value, b).Success?
    ensures !Unique(RegisterService(u, h, RegisterService(u, h, [], a).value, b).value)
  {
    FirstRegistrationSucceeds(u, h, a);
    var r1 := RegisterService(u, h, [], a).value;
    assert !Stops(u, h, c, Some(k), r1[0]);
    var r2 := RegisterService(u, h, r1, b).value;
    assert r2[0].contract == r2[1].contract && r2[0].key == r2[1].key;
  }

  // ---------------------------------------------------------------------
  // Contract inference scenarios

  /** Without a base type no interface is direct, so the type registers as
      itself whatever it implements. */
  lemma NoBaseTypeSelfRegisters(u: Universe, t: TypeId)
    requires Base(u, t).None?
    ensures DetermineDirectServiceType(u, t, Interfaces(u, t)) == Success(t)
  {
  }

  /** A derived type that adds no interface of its own registers as itself,
      not as an interface its base type already implements. */
  lemma InheritedInterfacesSelfRegister(u: Universe, t: TypeId, b: TypeId)
    requires Base(u, t) == Some(b)
    requires forall i :: i in Interfaces(u, t) ==> i in Interfaces(u, b)
    ensures DetermineDirectServiceType(u, t, Interfaces(u, t)) == Success(t)
  {
  }

  /** A type that adds exactly one interface beyond its base type's registers
      as that interface. */
  lemma OwnInterfaceResolves(u: Universe, t: TypeId, b: TypeId, i: TypeId)
    requires NoDup(Interfaces(u, t))
    requires Base(u, t) == Some(b)
    requires i in Interfaces(u, t) && i !in Interfaces(u, b)
    requires forall j :: j in Interfaces(u, t) && j != i ==> j in Interfaces(u, b)
    ensures DetermineDirectServiceType(u, t, Interfaces(u, t)) == Success(i)
  {
    assert Direct(u, t, i);
  }

  // ---------------------------------------------------------------------
  // Conflict scenarios

  /** Two types with the same contract and the same declared key: the second
      fails with `Duplicate(second, first, contract, key)`, unless the key is
      present and the host does not expose keyed implementations. */
  lemma SameKeyIsDuplicate(u: Universe, h: Accessors, a: TypeId, b: TypeId, c: TypeId)
    requires IsMarked(u, a) && IsMarked(u, b)
    requires ServiceType(u, a) == Success(c) && ServiceType(u, b) == Success(c)
    requires DeclaredKey(u, a) == DeclaredKey(u, b)
    requires DeclaredKey(u, a).None? || h.plainOnKeyed == Exposes
    ensures RegisterService(u, h, [], a).Success?
    ensures RegisterService(u, h, RegisterService(u, h, [], a).value, b)
      == Failure(Duplicate(b, a, c, DeclaredKey(u, a)))
  {
    FirstRegistrationSucceeds(u, h, a);
    var r1 := RegisterService(u, h, [], a).value;
    assert Stops(u, h, c, DeclaredKey(u, b), r1[0]);
  }

  /** Two types with the same contract and different declared keys both
      register, as long as the host lets `ImplementationType` read the first
      one's descriptor. */
  lemma DistinctKeysCoexist(u: Universe, h: Accessors, a: TypeId, b: TypeId, c: TypeId)
    requires IsMarked(u, a) && IsMarked(u, b)
    requires ServiceType(u, a) == Success(c) && ServiceType(u, b) == Success(c)
    requires DeclaredKey(u, a) != DeclaredKey(u, b)
    requires DeclaredKey(u, a).None? || h.plainOnKeyed != Throws
    ensures RegisterService(u, h, [], a).Success?
    ensures RegisterService(u, h, RegisterService(u, h, [], a).value, b).Success?
    ensures |RegisterService(u, h, RegisterService(u, h, [], a).value, b).value| == 2
  {
    FirstRegistrationSucceeds(u, h, a);
    var r1 := RegisterService(u, h, [], a).value;
    assert !Stops(u, h, c, DeclaredKey(u, b), r1[0]);
    RegisterServiceOutcome(u, h, r1, b);
  }

  /** A host whose `ImplementationType` throws on keyed descriptors turns any
      later registration under the contract of a keyed one into a fault. */
  lemma ThrowingHostFaultsAfterKeyed(u: Universe, h: Accessors, a: TypeId, b: TypeId, c: TypeId)
    requires IsMarked(u, a) && IsMarked(u, b)
    requires ServiceType(u, a) == Success(c) && ServiceType(u, b) == Success(c)
    requires DeclaredKey(u, a).Some?
    requires h.plainOnKeyed == Throws
    ensures RegisterService(u, h, [], a).Success?
    ensures RegisterService(u, h, RegisterService(u, h, [], a).value, b) == Failure(AccessorFault)
  {
    FirstRegistrationSucceeds(u, h, a);
    var r1 := RegisterService(u, h, [], a).value;
    assert Stops(u, h, c, DeclaredKey(u, b), r1[0]);
  }

  // ---------------------------------------------------------------------
  // Interfaces reached through interface extension

  /** As written, an interface the type reaches only by extension (the
      `IBaseService` of `MyService : IMyService`, `IMyService : IBaseService`)
      is direct as well, so such a type is ambiguous. */
  lemma ExtendedInterfaceIsAmbiguous(u: Universe, t: TypeId, b: TypeId, i: TypeId, j: TypeId)
    requires Base(u, t) == Some(b) && Interfaces(u, b) == []
    requires Interfaces(u, t) == [i, j] && i != j
    requires j in Interfaces(u, i)
    ensures DetermineDirectServiceType(u, t, Interfaces(u, t)) == Failure(Ambiguous(FullName(u, t)))
  {
    assert i in Interfaces(u, t) && j in Interfaces(u, t);
    assert Direct(u, t, i) && Direct(u, t, j);
  }

  /** The intended filter: direct (not implemented by the base type) and not
      extended by another direct interface. */
  predicate MostDerivedDirect(u: Universe, t: TypeId, ifs: seq<TypeId>, i: TypeId) {
    Direct(u, t, i) && forall o :: o in ifs && Direct(u, t, o) ==> o == i || !Assignable(u, i, o)
  }

  /** The direct-interface query with extended interfaces set aside. */
  function DetermineMostDerivedServiceType(u: Universe, t: TypeId, ifs: seq<TypeId>): (r: Result<TypeId, Error>)
    ensures r.Success? ==>
      || (r.value == t && forall i :: i in ifs ==> !MostDerivedDirect(u, t, ifs, i))
      || (r.value in ifs && MostDerivedDirect(u, t, ifs, r.value) &&
          forall j :: j in ifs && MostDerivedDirect(u, t, ifs, j) ==> j == r.value)
    ensures (forall i :: i in ifs ==> !MostDerivedDirect(u, t, ifs, i)) ==> r == Success(t)
    ensures r.Failure? ==> r.error == Ambiguous(FullName(u, t))
    ensures NoDup(ifs) ==>
      (r.Failure? <==> exists i, j :: i in ifs && j in ifs && i != j &&
                                      MostDerivedDirect(u, t, ifs, i) && MostDerivedDirect(u, t, ifs, j))
  {
    var p := (i: TypeId) => MostDerivedDirect(u, t, ifs, i);
    var direct := Filter(ifs, p);
    if |direct| == 0 then Success(t)
    else if |direct| == 1 then
      assert direct[0] in direct;
      Success(direct[0])
    else
      assert direct[0] in direct && direct[1] in direct;
      assert NoDup(ifs) ==> direct[0] != direct[1] by {
        if NoDup(ifs) {
          FilterNoDup(ifs, p);
        }
      }
      Failure(Ambiguous(FullName(u, t)))
  }

  /** With extended interfaces set aside, a type that adds one interface
      together with interfaces that one extends registers as that interface. */
  lemma MostDerivedDirectResolves(u: Universe, t: TypeId, b: TypeId, i: TypeId)
    requires AssignableExtends(u) && AssignableAntisymmetric(u)
    requires NoDup(Interfaces(u, t))
    requires Base(u, t) == Some(b)
    requires i in Interfaces(u, t) && i !in Interfaces(u, b)
    requires forall j :: j in Interfaces(u, t) && j !in Interfaces(u, b) && j != i ==> j in Interfaces(u, i)
    ensures DetermineMostDerivedServiceType(u, t, Interfaces(u, t)) == Success(i)
  {
    var ifs := Interfaces(u, t);
    var p := (x: TypeId) => MostDerivedDirect(u, t, ifs, x);
    assert MostDerivedDirect(u, t, ifs, i) by {
      forall o | o in ifs && Direct(u, t, o) ensures o == i || !Assignable(u, i, o) {
        if o != i {
          assert o in Interfaces(u, i);
          assert i !in Interfaces(u, o);
        }
      }
    }
    forall j | j in ifs && p(j) ensures j == i {
    }
    SingletonFilter(ifs, p, i);
  }

  /** Where no direct interface extends another, setting extended interfaces
      aside changes nothing: the two queries give the same answer. */
  lemma MostDerivedAgreesWithoutExtension(u: Universe, t: TypeId, ifs: seq<TypeId>)
    requires forall i, o :: i in ifs && o in ifs && Direct(u, t, i) && Direct(u, t, o) && i != o ==> !Assignable(u, i, o)
    ensures DetermineMostDerivedServiceType(u, t, ifs) == DetermineDirectServiceType(u, t, ifs)
  {
    var p := (i: TypeId) => MostDerivedDirect(u, t, ifs, i);
    var q := (i: TypeId) => Direct(u, t, i);
    FilterCongruent(ifs, p, q);
  }

  /** The contract with the intended direct-interface query: the override, or
      the single most-derived direct interface, or the type itself. */
  function ServiceTypeMostDerived(u: Universe, t: TypeId): (r: Result<TypeId, Error>)
    requires IsMarked(u, t)
    ensures AutoInjectAttr(u, t).value.serviceType.Some? ==>
      r == Success(AutoInjectAttr(u, t).value.serviceType.value)
    ensures r.Success? ==>
      r.value == t || r.value in Interfaces(u, t) || Some(r.value) == AutoInjectAttr(u, t).value.serviceType
    ensures r.Failure? ==> AutoInjectAttr(u, t).value.serviceType.None? && r.error == Ambiguous(FullName(u, t))
    ensures AutoInjectAttr(u, t).value.serviceType.None? ==>
      (r.Success? <==> DetermineMostDerivedServiceType(u, t, Interfaces(u, t)).Success?) &&
      (r.Success? ==> r.value == DetermineMostDerivedServiceType(u, t, Interfaces(u, t)).value)
    ensures (AutoInjectAttr(u, t).value.serviceType.None? &&
             forall i :: i in Interfaces(u, t) ==> !MostDerivedDirect(u, t, Interfaces(u, t), i)) ==>
      r == Success(t)
    ensures AutoInjectAttr(u, t).value.serviceType.None? && r.Success? && r.value != t ==>
      r.value in Interfaces(u, t) && MostDerivedDirect(u, t, Interfaces(u, t), r.value) &&
      forall j :: j in Interfaces(u, t) && MostDerivedDirect(u, t, Interfaces(u, t), j) ==> j == r.value
    ensures AutoInjectAttr(u, t).value.serviceType.None? && NoDup(Interfaces(u, t)) ==>
      (r.Failure? <==> exists i, j :: i in Interfaces(u, t) && j in Interfaces(u, t) && i != j &&
                                      MostDerivedDirect(u, t, Interfaces(u, t), i) &&
                                      MostDerivedDirect(u, t, Interfaces(u, t), j))
  {
    match AutoInjectAttr(u, t).value.serviceType
    case Some(s) => Success(s)
    case None => DetermineMostDerivedServiceType(u, t, Interfaces(u, t))
  }

  /** The case of the interface hierarchy test: a class whose base type
      implements nothing and which implements `IMyService : IBaseService`
      registers as `IMyService` under the intended query. */
  lemma ExtendingInterfaceResolvesMostDerived(u: Universe, t: TypeId, b: TypeId, i: TypeId, j: TypeId)
    requires AssignableExtends(u) && AssignableAntisymmetric(u)
    requires IsMarked(u, t) && AutoInjectAttr(u, t).value.serviceType.None?
    requires Base(u, t) == Some(b) && Interfaces(u, b) == []
    requires Interfaces(u, t) == [i, j] && i != j
    requires j in Interfaces(u, i)
    ensures ServiceTypeMostDerived(u, t) == Success(i)
    ensures ServiceType(u, t) == Failure(Ambiguous(FullName(u, t)))
  {
    ExtendedInterfaceIsAmbiguous(u, t, b, i, j);
    MostDerivedDirectResolves(u, t, b, i);
  }
}

=== FILE: comparison.dfy ===
/** Where the two registrars agree and where they part. */
module Comparison {
  import opened Wrappers
  import opened Seqs
  import opened Host
  import opened Attributes
  import opened Reflection
  import opened Errors
  import SR = ServiceRegistrar
  import AI = AutoInjectServiceRegistrations

  /** Both scans pick the same types in the same order: a keyed marker is an
      `AutoInjectAttribute` too, so testing for either marker is testing for
      the plain one. */
  lemma CandidateFiltersAgree(u: Universe, types: seq<TypeId>)
    ensures SR.Candidates(u, types) == AI.Candidates(u, types)
  {
    var p := (t: TypeId) => SR.IsCandidate(u, t);
    var q := (t: TypeId) => AI.IsCandidate(u, t);
    FilterCongruent(types, p, q);
    assert SR.Candidates(u, types) == Filter(types, p);
    assert AI.Candidates(u, types) == Filter(types, q);
  }

  /** Markers are not inherited: two universes that differ at most in what
      `t`'s base type declares agree on whether either registrar scans `t`
      and on the key each files it under, whatever marker the base carries. */
  lemma MarkerNotInherited(u: Universe, v: Universe, t: TypeId, b: TypeId)
    requires Base(u, t) == Some(b) && b != t
    requires forall x :: x != b ==> u.info(x) == v.info(x)
    ensures IsMarked(u, t) == IsMarked(v, t) && AutoInjectAttr(u, t) == AutoInjectAttr(v, t)
    ensures SR.IsCandidate(u, t) == SR.IsCandidate(v, t) && AI.IsCandidate(u, t) == AI.IsCandidate(v, t)
    ensures SR.GetKey(u, t) == SR.GetKey(v, t) && DeclaredKey(u, t) == DeclaredKey(v, t)
  {
  }

  /** The two registrars file a type under the same key exactly when it
      carries a plain marker without a key: a keyed marker gets its simple
      name from the first and no key from the second, and a plain marker's
      key is used only by the second. */
  lemma KeyDerivationsAgreeIff(u: Universe, t: TypeId)
    requires MarkersConstructible(u)
    requires IsMarked(u, t)
    ensures SR.GetKey(u, t) == DeclaredKey(u, t) <==> KeyedAutoInjectAttr(u, t).None? && DeclaredKey(u, t).None?
  {
    if KeyedAutoInjectAttr(u, t).Some? {
      KeyedDeclaresNoKey(u, t);
    }
  }

  /** An override settles the contract identically in both registrars. */
  lemma OverrideAgrees(u: Universe, t: TypeId)
    requires IsMarked(u, t) && AutoInjectAttr(u, t).value.serviceType.Some?
    ensures SR.DetermineServiceType(u, t, AutoInjectAttr(u, t).value) == AI.ServiceType(u, t)
    ensures AI.ServiceType(u, t) == Success(AutoInjectAttr(u, t).value.serviceType.value)
  {
  }

  /** Without an override the two contract rules part on a class that adds
      `IMyService : IBaseService` over a base type with no interfaces: the
      first registrar picks `IMyService`, the second finds two direct
      interfaces. */
  lemma ContractRulesPart(u: Universe, t: TypeId, b: TypeId, i: TypeId, j: TypeId)
    requires AssignableExtends(u) && AssignableAntisymmetric(u) && InterfacesDistinct(u)
    requires IsMarked(u, t) && AutoInjectAttr(u, t).value.serviceType.None?
    requires !IsGeneric(u, i)
    requires Base(u, t) == Some(b) && Interfaces(u, b) == []
    requires Interfaces(u, t) == [i, j] && i != j
    requires j in Interfaces(u, i)
    ensures SR.DetermineServiceType(u, t, AutoInjectAttr(u, t).value) == Success(i)
    ensures AI.ServiceType(u, t) == Failure(Ambiguous(FullName(u, t)))
  {
    SR.ExtendingInterfaceWins(u, t, i);
    AI.ExtendedInterfaceIsAmbiguous(u, t, b, i, j);
  }
}

=== FILE: errors.dfy ===
/** The two registration failures, plus the host's refusal to answer an
    accessor, and the text of the duplicate-registration message. */
module Errors {
  import opened Wrappers
  import opened Seqs
  import opened Host
  import opened Reflection

  datatype Error =
    /** `AmbiguousServiceTypeException`, carrying the type's full name. */
    | Ambiguous(fullName: string)
    /** `DuplicateServiceRegistrationException(newType, existingType, serviceType, key)`. */
    | Duplicate(newType: TypeId, existing: TypeId, contract: TypeId, key: Option<string>)
    /** The host threw while an implementation accessor was read. */
    | AccessorFault

  /** The interpolation `key ?? "null"`: an absent key reads `null`, a
      present one is shown verbatim. */
  function KeyText(key: Option<string>): (s: string)
    ensures key.None? ==> s == "null"
    ensures key.Some? ==> s == key.value
  {
    match key
    case None => "null"
    case Some(k) => k
  }

  /** Each interpolated block of a nine-part message occurs in it. */
  lemma MessageParts(
    a: string, newPart: string, b: string, contractPart: string, c: string,
    keyPart: string, d: string, existingPart: string, e: string)
    ensures Contains(a + newPart + b + contractPart + c + keyPart + d + existingPart + e, newPart)
    ensures Contains(a + newPart + b + contractPart + c + keyPart + d + existingPart + e, contractPart)
    ensures Contains(a + newPart + b + contractPart + c + keyPart + d + existingPart + e, keyPart)
    ensures Contains(a + newPart + b + contractPart + c + keyPart + d + existingPart + e, existingPart)
  {
    var m := a + newPart + b + contractPart + c + keyPart + d + existingPart + e;
    var p1 := a;
    var p2 := p1 + newPart + b;
    var p3 := p2 + contractPart + c;
    var p4 := p3 + keyPart + d;
    assert newPart <= m[|p1|..];
    assert contractPart <= m[|p2|..];
    assert keyPart <= m[|p3|..];
    assert existingPart <= m[|p4|..];
  }

  /** The message of `DuplicateServiceRegistrationException`. It names the new
      type, the contract and the existing type by full name, and renders an
      absent key as `null` and a present key verbatim. */
  function DuplicateMessage(
    u: Universe, newType: TypeId, existing: TypeId, contract: TypeId, key: Option<string>): (m: string)
    ensures Contains(m, "The class '" + FullName(u, newType) + "'")
    ensures Contains(m, "as '" + FullName(u, contract) + "'")
    ensures Contains(m, "with key '" + KeyText(key) + "'")
    ensures Contains(m, "registration: '" + FullName(u, existing) + "'")
  {
    var newPart := "The class '" + FullName(u, newType) + "'";
    var contractPart := "as '" + FullName(u, contract) + "'";
    var keyPart := "with key '" + KeyText(key) + "'";
    var existingPart := "registration: '" + FullName(u, existing) + "'";
    var a := "A conflict occurred while registering services. ";
    var b := " is trying to register ";
    var c := " ";
    var d := ", but it conflicts with an existing ";
    var e := ". Duplicate registrations are not allowed.";
    MessageParts(a, newPart, b, contractPart, c, keyPart, d, existingPart, e);
    a + newPart + b + contractPart + c + keyPart + d + existingPart + e
  }
}

=== FILE: host.dfy ===
/** The vocabulary borrowed from the host container library
    (Microsoft.Extensions.DependencyInjection), which is not part of this
    model: type identities, service lifetimes, service descriptors, and how
    the descriptor's implementation accessors behave. */
module Host {
  import opened Wrappers

  /** Identity of a runtime type (`System.Type`). */
  type TypeId = nat

  /** `ServiceLifetime`, in the host's declaration order. */
  datatype Lifetime = Singleton | Scoped | Transient

  /** `ServiceDescriptor(serviceType, serviceKey, implementationType, lifetime)`.
      `impl` is `None` for descriptors registered with a factory or an
      instance by other code sharing the collection. */
  datatype Descriptor = Descriptor(
    contract: TypeId,
    key: Option<string>,
    impl: Option<TypeId>,
    lifetime: Lifetime)
  {
    /** `IsKeyedService`: the descriptor carries a service key. */
    predicate IsKeyed() {
      key.Some?
    }
  }

  /** What an implementation accessor does when asked about a descriptor of
      the other kind: report the implementation, report `null`, or throw. */
  datatype Behaviour = Exposes | Hides | Throws

  /** The host's accessor policy, a parameter of the model:
      `plainOnKeyed` is what `ImplementationType` does on a keyed descriptor,
      `keyedOnPlain` what `KeyedImplementationType` does on an unkeyed one.
      On a descriptor of their own kind both report the implementation. */
  datatype Accessors = Accessors(plainOnKeyed: Behaviour, keyedOnPlain: Behaviour)
}

=== FILE: reflection.dfy ===
/** Reflection replaced by an explicit type universe: every type id maps to
    what `System.Type` would report about it. */
module Reflection {
  import opened Wrappers
  import opened Seqs
  import opened Host
  import opened Attributes

  /** What reflection reports about one type. `interfaces` is the array
      `GetInterfaces()` returns (all interfaces, inherited ones included);
      `attr` is the marker declared on the type itself, if any. */
  datatype TypeInfo = TypeInfo(
    name: string,
    fullName: string,
    isAbstract: bool,
    isGeneric: bool,
    genericDef: TypeId,
    base: Option<TypeId>,
    interfaces: seq<TypeId>,
    attr: Option<Attr>)

  /** `info` is what reflection reports per type; `assignable(i, o)` is
      `i.IsAssignableFrom(o)`, which also holds through generic variance
      (`IEnumerable<object>` from `IEnumerable<string>`), so it is given
      rather than derived from the interface lists. */
  datatype Universe = Universe(info: TypeId -> TypeInfo, assignable: (TypeId, TypeId) -> bool)

  function Interfaces(u: Universe, t: TypeId): seq<TypeId> {
    u.info(t).interfaces
  }

  function Base(u: Universe, t: TypeId): Option<TypeId> {
    u.info(t).base
  }

  function Name(u: Universe, t: TypeId): string {
    u.info(t).name
  }

  function FullName(u: Universe, t: TypeId): string {
    u.info(t).fullName
  }

  predicate IsAbstract(u: Universe, t: TypeId) {
    u.info(t).isAbstract
  }

  predicate IsGeneric(u: Universe, t: TypeId) {
    u.info(t).isGeneric
  }

  function GenericDef(u: Universe, t: TypeId): TypeId {
    u.info(t).genericDef
  }

  /** `i.IsAssignableFrom(o)`: a value of type `o` can be used as an `i`. */
  predicate Assignable(u: Universe, i: TypeId, o: TypeId) {
    u.assignable(i, o)
  }

  /** `GetCustomAttribute<AutoInjectAttribute>()`: the marker declared on `t`
      itself, of either kind because the keyed marker derives from the plain
      one. Both markers are declared with `Inherited = false`, so a base
      type's marker is never consulted. */
  function AutoInjectAttr(u: Universe, t: TypeId): Option<Attr> {
    u.info(t).attr
  }

  /** `GetCustomAttribute<KeyedAutoInjectAttribute>()`: the declared marker
      when it is the keyed kind. */
  function KeyedAutoInjectAttr(u: Universe, t: TypeId): (a: Option<Attr>)
    ensures a.Some? ==> a == AutoInjectAttr(u, t) && a.value.keyed
    ensures AutoInjectAttr(u, t).Some? && AutoInjectAttr(u, t).value.keyed ==> a.Some?
  {
    match AutoInjectAttr(u, t)
    case Some(a) => if a.keyed then Some(a) else None
    case None => None
  }

  /** The type carries a marker of either kind. */
  predicate IsMarked(u: Universe, t: TypeId) {
    AutoInjectAttr(u, t).Some?
  }

  /** `GetCustomAttribute<AutoInjectAttribute>()?.Key`: the declared key, or
      none when the type carries no marker. */
  function DeclaredKey(u: Universe, t: TypeId): (k: Option<string>)
    ensures AutoInjectAttr(u, t).None? ==> k.None?
    ensures AutoInjectAttr(u, t).Some? ==> k == AutoInjectAttr(u, t).value.key
  {
    match AutoInjectAttr(u, t)
    case Some(a) => a.key
    case None => None
  }

  // The facts reflection guarantees about a real type system.

  /** `GetInterfaces()` never lists an interface twice. */
  ghost predicate InterfacesDistinct(u: Universe) {
    forall t :: NoDup(Interfaces(u, t))
  }

  /** `GetInterfaces()` is closed under interface extension. */
  ghost predicate InterfacesTransitive(u: Universe) {
    forall t, i, k :: i in Interfaces(u, t) && k in Interfaces(u, i) ==> k in Interfaces(u, t)
  }

  /** Interface extension has no cycles (and no type implements itself). */
  ghost predicate InterfacesAcyclic(u: Universe) {
    forall t, i :: i in Interfaces(u, t) ==> t !in Interfaces(u, i)
  }

  /** The definition of a generic type is generic and is its own definition. */
  ghost predicate GenericDefinitionsStable(u: Universe) {
    forall t :: IsGeneric(u, t) ==>
      IsGeneric(u, GenericDef(u, t)) && GenericDef(u, GenericDef(u, t)) == GenericDef(u, t)
  }

  /** Every declared marker was built by one of the two constructors. */
  ghost predicate MarkersConstructible(u: Universe) {
    forall t :: AutoInjectAttr(u, t).Some? ==> Constructible(AutoInjectAttr(u, t).value)
  }

  /** A type is assignable to every interface it implements. */
  ghost predicate AssignableExtends(u: Universe) {
    forall i, o :: i in Interfaces(u, o) ==> Assignable(u, i, o)
  }

  /** Assignability composes. */
  ghost predicate AssignableTransitive(u: Universe) {
    forall a, b, c :: Assignable(u, a, b) && Assignable(u, b, c) ==> Assignable(u, a, c)
  }

  /** Two distinct types are never assignable to each other both ways. */
  ghost predicate AssignableAntisymmetric(u: Universe) {
    forall a, b :: Assignable(u, a, b) && Assignable(u, b, a) ==> a == b
  }

  ghost predicate WellFormed(u: Universe) {
    && InterfacesDistinct(u)
    && InterfacesTransitive(u)
    && InterfacesAcyclic(u)
    && AssignableExtends(u)
    && AssignableTransitive(u)
    && AssignableAntisymmetric(u)
    && GenericDefinitionsStable(u)
    && MarkersConstructible(u)
  }

  /** In a well-formed universe no type lists itself among its interfaces. */
  lemma NotOwnInterface(u: Universe, t: TypeId)
    requires InterfacesAcyclic(u)
    ensures t !in Interfaces(u, t)
  {
  }

  /** A keyed marker declares no key in a well-formed universe. */
  lemma KeyedDeclaresNoKey(u: Universe, t: TypeId)
    requires MarkersConstructible(u)
    requires KeyedAutoInjectAttr(u, t).Some?
    ensures DeclaredKey(u, t).None?
  {
  }
}

=== FILE: registry.dfy ===
/** The service collection as an append-only sequence of descriptors, the
    host's implementation accessors over it, and the invariant the registrars
    are meant to keep. */
module Registry {
  import opened Wrappers
  import opened Host
  import opened Reflection
  import opened Errors

  /** One accessor read: a descriptor of the accessor's own kind reports its
      implementation; one of the other kind follows the host's behaviour. */
  function Access(b: Behaviour, d: Descriptor, ownKind: bool): Result<Option<TypeId>, Error> {
    if ownKind then Success(d.impl)
    else match b
      case Exposes => Success(d.impl)
      case Hides => Success(None)
      case Throws => Failure(AccessorFault)
  }

  /** `descriptor.ImplementationType`. */
  function ImplementationType(h: Accessors, d: Descriptor): (r: Result<Option<TypeId>, Error>)
    ensures !d.IsKeyed() ==> r == Success(d.impl)
    ensures d.IsKeyed() && h.plainOnKeyed == Exposes ==> r == Success(d.impl)
    ensures d.IsKeyed() && h.plainOnKeyed == Hides ==> r == Success(None)
    ensures r.Failure? <==> d.IsKeyed() && h.plainOnKeyed == Throws
    ensures r.Failure? ==> r.error == AccessorFault
  {
    Access(h.plainOnKeyed, d, !d.IsKeyed())
  }

  /** `descriptor.KeyedImplementationType`. */
  function KeyedImplementationType(h: Accessors, d: Descriptor): (r: Result<Option<TypeId>, Error>)
    ensures d.IsKeyed() ==> r == Success(d.impl)
    ensures !d.IsKeyed() && h.keyedOnPlain == Exposes ==> r == Success(d.impl)
    ensures !d.IsKeyed() && h.keyedOnPlain == Hides ==> r == Success(None)
    ensures r.Failure? <==> !d.IsKeyed() && h.keyedOnPlain == Throws
    ensures r.Failure? ==> r.error == AccessorFault
  {
    Access(h.keyedOnPlain, d, d.IsKeyed())
  }

  /** The central invariant: no two descriptors share both contract and key
      (an absent key equals only an absent key). */
  ghost predicate Unique(reg: seq<Descriptor>) {
    forall i, j :: 0 <= i < j < |reg| ==> reg[i].contract != reg[j].contract || reg[i].key != reg[j].key
  }

  /** Every descriptor names an implementation type whose declared marker key
      is the descriptor's key, as the second registrar's descriptors do. */
  ghost predicate KeysDeclared(u: Universe, reg: seq<Descriptor>) {
    forall i :: 0 <= i < |reg| ==> reg[i].impl.Some? && reg[i].key == DeclaredKey(u, reg[i].impl.value)
  }

  /** Appending one descriptor keeps the registry unique exactly when no
      earlier descriptor has the same contract and key. */
  lemma AppendUnique(reg: seq<Descriptor>, d: Descriptor)
    requires Unique(reg)
    ensures Unique(reg + [d]) <==> forall i :: 0 <= i < |reg| ==> reg[i].contract != d.contract || reg[i].key != d.key
  {
    var r := reg + [d];
    if forall i :: 0 <= i < |reg| ==> reg[i].contract != d.contract || reg[i].key != d.key {
      forall i, j | 0 <= i < j < |r| ensures r[i].contract != r[j].contract || r[i].key != r[j].key {
        if j == |reg| {
          assert r[j] == d && r[i] == reg[i];
        } else {
          assert r[i] == reg[i] && r[j] == reg[j];
        }
      }
    } else {
      var i :| 0 <= i < |reg| && reg[i].contract == d.contract && reg[i].key == d.key;
      assert r[i] == reg[i] && r[|reg|] == d;
    }
  }
}

=== FILE: scans.dfy ===
/** The `foreach` both registrars run over an assembly's candidates, for any
    registration step: each candidate is registered in turn against the
    collection as it then stands, and the first failure stops the scan
    without undoing what earlier steps appended. */
module Scans {
  import opened Wrappers
  import opened Host
  import opened Errors

  /** The outcome of a scan: the collection as it stands afterwards, and the
      exception that stopped the scan, if any. */
  datatype Scan = Scan(registry: seq<Descriptor>, failure: Option<Error>)

  /** A registration step: given the collection and a type, the collection
      after the type's registration, or the error it raised. */
  type Step = (seq<Descriptor>, TypeId) --> Result<seq<Descriptor>, Error>

  /** The step is defined on every candidate, and a success appends exactly
      one descriptor, for the candidate, after the untouched collection. */
  ghost predicate Appends(step: Step, cands: seq<TypeId>) {
    forall reg: seq<Descriptor>, t: TypeId :: t in cands ==>
      && step.requires(reg, t)
      && (step(reg, t).Success? ==>
            && |step(reg, t).value| == |reg| + 1
            && step(reg, t).value[..|reg|] == reg
            && step(reg, t).value[|reg|].impl == Some(t))
  }

  /** A step that appends for some candidates appends for any of them. */
  lemma AppendsTail(step: Step, cands: seq<TypeId>)
    requires |cands| > 0 && Appends(step, cands)
    ensures Appends(step, cands[1..])
  {
    assert forall t :: t in cands[1..] ==> t in cands;
  }

  /** The scan: the existing descriptors stay as a prefix, one descriptor is
      appended per candidate in candidate order, and the scan finishes
      exactly when every candidate was appended. */
  function Fold(step: Step, reg: seq<Descriptor>, cands: seq<TypeId>): (r: Scan)
    requires Appends(step, cands)
    ensures |reg| <= |r.registry| <= |reg| + |cands| && r.registry[..|reg|] == reg
    ensures forall k :: |reg| <= k < |r.registry| ==> r.registry[k].impl == Some(cands[k - |reg|])
    ensures r.failure.None? <==> |r.registry| == |reg| + |cands|
    decreases |cands|
  {
    if |cands| == 0 then Scan(reg, None)
    else
      assert cands[0] in cands;
      var next := step(reg, cands[0]);
      if next.Failure? then Scan(reg, Some(next.error))
      else
        AppendsTail(step, cands);
        var r := Fold(step, next.value, cands[1..]);
        StepInOrder(reg, next.value, cands, r.registry);
        r
  }

  /** One step of a scan, on the descriptors alone: when the step appends a
      descriptor for the first candidate and the rest of the scan appends
      the remaining candidates in order, the whole scan appends all of them
      in order after the untouched collection. */
  lemma StepInOrder(reg: seq<Descriptor>, next: seq<Descriptor>, cands: seq<TypeId>, out: seq<Descriptor>)
    requires |cands| > 0
    requires |next| == |reg| + 1 && next[..|reg|] == reg && next[|reg|].impl == Some(cands[0])
    requires |next| <= |out| <= |next| + |cands[1..]| && out[..|next|] == next
    requires forall k :: |next| <= k < |out| ==> out[k].impl == Some(cands[1..][k - |next|])
    ensures |reg| <= |out| <= |reg| + |cands| && out[..|reg|] == reg
    ensures forall k :: |reg| <= k < |out| ==> out[k].impl == Some(cands[k - |reg|])
  {
    assert out[..|reg|] == next[..|reg|];
    assert out[|reg|] == next[|reg|];
    forall k | |next| <= k < |out| ensures out[k].impl == Some(cands[k - |reg|]) {
      assert cands[1..][k - |next|] == cands[k - |reg|];
    }
  }

  /** Every descriptor a scan appends is what the step produced for its
      candidate against the collection as it stood just before. */
  lemma {:induction false} FoldStepsInOrder(step: Step, reg: seq<Descriptor>, cands: seq<TypeId>, k: nat)
    requires Appends(step, cands)
    requires |reg| <= k < |Fold(step, reg, cands).registry|
    ensures cands[k - |reg|] in cands
    ensures var r := Fold(step, reg, cands).registry;
      step(r[..k], cands[k - |reg|]) == Success(r[..k + 1])
    decreases |cands|
  {
    var full := Fold(step, reg, cands).registry;
    assert cands[0] in cands;
    var next := step(reg, cands[0]);
    AppendsTail(step, cands);
    var rest := Fold(step, next.value, cands[1..]).registry;
    assert full == rest;
    if k == |reg| {
      assert full[..k] == reg && full[..k + 1] == next.value;
    } else {
      assert cands[1..][k - |next.value|] == cands[k - |reg|];
      FoldStepsInOrder(step, next.value, cands[1..], k);
    }
  }

  /** A scan that stops does so at the candidate right after the last one it
      appended, and reports exactly the error that candidate's step raised
      against the collection as it then stood. */
  lemma {:induction false} FoldStopsAtFirstFailure(step: Step, reg: seq<Descriptor>, cands: seq<TypeId>)
    requires Appends(step, cands)
    ensures var r := Fold(step, reg, cands);
      r.failure.Some? ==>
        && cands[|r.registry| - |reg|] in cands
        && step(r.registry, cands[|r.registry| - |reg|]) == Failure(r.failure.value)
    decreases |cands|
  {
    if |cands| > 0 {
      assert cands[0] in cands;
      var next := step(reg, cands[0]);
      if next.Success? {
        AppendsTail(step, cands);
        FoldStopsAtFirstFailure(step, next.value, cands[1..]);
        var r := Fold(step, next.value, cands[1..]);
        if r.failure.Some? {
          var n := |r.registry| - |next.value|;
          assert n + 1 == |r.registry| - |reg|;
          assert cands[1..][n] == cands[n + 1];
        }
      }
    }
  }

  /** A property of the collection that every successful step keeps holds
      after the scan, whether it finishes or stops early. */
  lemma {:induction false} FoldPreserves(step: Step, inv: seq<Descriptor> -> bool, reg: seq<Descriptor>, cands: seq<TypeId>)
    requires Appends(step, cands)
    requires forall r: seq<Descriptor>, t: TypeId ::
      t in cands && inv(r) && step.requires(r, t) && step(r, t).Success? ==> inv(step(r, t).value)
    requires inv(reg)
    ensures inv(Fold(step, reg, cands).registry)
    decreases |cands|
  {
    if |cands| > 0 {
      assert cands[0] in cands;
      var next := step(reg, cands[0]);
      if next.Success? {
        AppendsTail(step, cands);
        FoldPreserves(step, inv, next.value, cands[1..]);
      }
    }
  }
}

=== FILE: seqs.dfy ===
/** Sequence helpers standing in for the LINQ operators the source uses
    (`Where`, `FirstOrDefault`, `Contains` on strings). */
module Seqs {

  /** No element occurs twice. */
  predicate NoDup<T(==)>(s: seq<T>) {
    forall i, j :: 0 <= i < j < |s| ==> s[i] != s[j]
  }

  /** `sub` occurs as a contiguous block of `s`. */
  predicate Contains<T(==)>(s: seq<T>, sub: seq<T>) {
    exists i :: 0 <= i <= |s| && sub <= s[i..]
  }

  /** The elements of `s` satisfying `p`, in their original order (LINQ `Where`). */
  function Filter<T(!new)>(s: seq<T>, p: T -> bool): (r: seq<T>)
    ensures |r| <= |s|
    ensures forall x :: x in r <==> x in s && p(x)
  {
    if |s| == 0 then []
    else (if p(s[0]) then [s[0]] else []) + Filter(s[1..], p)
  }

  /** Filtering distributes over concatenation, so it keeps the relative order. */
  lemma {:induction false} FilterAppend<T(!new)>(a: seq<T>, b: seq<T>, p: T -> bool)
    ensures Filter(a + b, p) == Filter(a, p) + Filter(b, p)
  {
    if |a| == 0 {
      assert a + b == b;
    } else {
      assert (a + b)[1..] == a[1..] + b;
      FilterAppend(a[1..], b, p);
    }
  }

  /** Two predicates that agree on every element of `s` filter it alike. */
  lemma {:induction false} FilterCongruent<T(!new)>(s: seq<T>, p: T -> bool, q: T -> bool)
    requires forall x :: x in s ==> p(x) == q(x)
    ensures Filter(s, p) == Filter(s, q)
  {
    if |s| > 0 {
      assert s[0] in s;
      assert forall x :: x in s[1..] ==> x in s;
      FilterCongruent(s[1..], p, q);
    }
  }

  /** Filtering a sequence without repetitions yields one without repetitions. */
  lemma {:induction false} FilterNoDup<T(!new)>(s: seq<T>, p: T -> bool)
    requires NoDup(s)
    ensures NoDup(Filter(s, p))
  {
    if |s| > 0 {
      assert NoDup(s[1..]) by {
        forall i, j | 0 <= i < j < |s[1..]| ensures s[1..][i] != s[1..][j] {
          assert s[1..][i] == s[i + 1] && s[1..][j] == s[j + 1];
        }
      }
      FilterNoDup(s[1..], p);
      var rest := Filter(s[1..], p);
      assert s[0] !in s[1..] by {
        forall k | 0 <= k < |s[1..]| ensures s[1..][k] != s[0] {
          assert s[1..][k] == s[k + 1];
        }
      }
      assert s[0] !in rest;
      var head: seq<T> := if p(s[0]) then [s[0]] else [];
      assert Filter(s, p) == head + rest;
      forall i, j | 0 <= i < j < |head + rest| ensures (head + rest)[i] != (head + rest)[j] {
        if |head| == 1 && i == 0 {
          assert (head + rest)[j] == rest[j - 1];
          assert rest[j - 1] in rest;
        } else {
          assert (head + rest)[i] == rest[i - |head|];
          assert (head + rest)[j] == rest[j - |head|];
        }
      }
    }
  }

  /** A filtered sequence without repetitions has one element exactly when
      exactly one element of the source satisfies the predicate. */
  lemma SingletonFilter<T(!new)>(s: seq<T>, p: T -> bool, x: T)
    requires NoDup(s)
    ensures Filter(s, p) == [x] <==> x in s && p(x) && forall y :: y in s && p(y) ==> y == x
  {
    var r := Filter(s, p);
    FilterNoDup(s, p);
    if x in s && p(x) && forall y :: y in s && p(y) ==> y == x {
      assert x in r;
      assert r == [x] by {
        assert |r| == 1 && r[0] in r;
      }
    }
  }

  /** The position of the first element satisfying `p`, or `|s|` when there is
      none (the scan behind LINQ `FirstOrDefault`). */
  function FirstIndex<T>(s: seq<T>, p: T -> bool): (i: nat)
    ensures i <= |s|
    ensures forall j :: 0 <= j < i ==> !p(s[j])
    ensures i < |s| ==> p(s[i])
  {
    if |s| == 0 then 0
    else if p(s[0]) then 0
    else 1 + FirstIndex(s[1..], p)
  }
}

=== FILE: service_registrar.dfy ===
/** The registrar `ServiceRegistrar`: the contract is the override, or the
    single implemented interface no other implemented interface extends, made
    generic-open when inferred; the key is the type's simple name for a keyed
    marker and absent otherwise; the conflict check has one branch per kind
    of key. */
module ServiceRegistrar {
  import opened Wrappers
  import opened Seqs
  import opened Host
  import opened Attributes
  import opened Reflection
  import opened Errors
  import opened Registry
  import opened Scans

  /** The scan filter: not abstract, and carrying the plain marker or the
      keyed one. */
  predicate IsCandidate(u: Universe, t: TypeId) {
    !IsAbstract(u, t) && (AutoInjectAttr(u, t).Some? || KeyedAutoInjectAttr(u, t).Some?)
  }

  /** The types of the assembly that the scan registers, in assembly order. */
  function Candidates(u: Universe, types: seq<TypeId>): (r: seq<TypeId>)
    ensures forall t :: t in r <==> t in types && !IsAbstract(u, t) && IsMarked(u, t)
  {
    Filter(types, t => IsCandidate(u, t))
  }

  /** `GetKey(type)`: the simple name for a keyed marker. Otherwise the
      source reads the keyed marker a second time, finds none, and so yields
      no key: a plain marker's declared key is never used. */
  function GetKey(u: Universe, t: TypeId): (k: Option<string>)
    ensures k.Some? <==> KeyedAutoInjectAttr(u, t).Some?
    ensures k.Some? ==> k.value == Name(u, t)
    ensures AutoInjectAttr(u, t).Some? && !AutoInjectAttr(u, t).value.keyed ==> k.None?
  {
    if KeyedAutoInjectAttr(u, t).Some? then Some(Name(u, t))
    else match KeyedAutoInjectAttr(u, t)
      case Some(a) => a.key
      case None => None
  }

  /** The key derivation the second lookup in `GetKey` evidently meant: a
      keyed marker gives the simple name, and otherwise the key the plain
      marker declares. */
  function GetKeyDeclared(u: Universe, t: TypeId): (k: Option<string>)
    ensures KeyedAutoInjectAttr(u, t).Some? ==> k == Some(Name(u, t))
    ensures KeyedAutoInjectAttr(u, t).None? ==> k == DeclaredKey(u, t)
  {
    if KeyedAutoInjectAttr(u, t).Some? then Some(Name(u, t)) else DeclaredKey(u, t)
  }

  /** The two derivations differ exactly on a type whose plain marker
      declares a key: as written that key is dropped, and the intended
      derivation files the type under it. */
  lemma GetKeyDropsDeclaredKey(u: Universe, t: TypeId)
    ensures GetKey(u, t) != GetKeyDeclared(u, t) <==>
      AutoInjectAttr(u, t).Some? && !AutoInjectAttr(u, t).value.keyed && AutoInjectAttr(u, t).value.key.Some?
    ensures AutoInjectAttr(u, t).Some? && !AutoInjectAttr(u, t).value.keyed ==>
      GetKey(u, t).None? && GetKeyDeclared(u, t) == AutoInjectAttr(u, t).value.key
  {
  }

  /** The filter of `GetDirectServiceType`: no other interface in `ifs` is
      assignable to `i`, that is, none extends it. */
  predicate MostDerived(u: Universe, ifs: seq<TypeId>, i: TypeId) {
    forall o :: o in ifs ==> o == i || !Assignable(u, i, o)
  }

  /** `GetDirectServiceType(type, implementedInterfaces)`: no most-derived
      interface gives the type itself, exactly one gives that interface, two
      or more fail as ambiguous. */
  function GetDirectServiceType(u: Universe, t: TypeId, ifs: seq<TypeId>): (r: Result<TypeId, Error>)
    ensures r.Success? ==>
      || (r.value == t && forall i :: i in ifs ==> !MostDerived(u, ifs, i))
      || (r.value in ifs && MostDerived(u, ifs, r.value) &&
          forall j :: j in ifs && MostDerived(u, ifs, j) ==> j == r.value)
    ensures (forall i :: i in ifs ==> !MostDerived(u, ifs, i)) ==> r == Success(t)
    ensures r.Failure? ==> r.error == Ambiguous(FullName(u, t))
    ensures NoDup(ifs) ==>
      (r.Failure? <==> exists i, j :: i in ifs && j in ifs && i != j && MostDerived(u, ifs, i) && MostDerived(u, ifs, j))
  {
    var p := (i: TypeId) => MostDerived(u, ifs, i);
    var direct := Filter(ifs, p);
    if |direct| == 0 then Success(t)
    else if |direct| == 1 then
      assert direct[0] in direct;
      Success(direct[0])
    else
      assert direct[0] in direct && direct[1] in direct;
      assert NoDup(ifs) ==> direct[0] != direct[1] by {
        if NoDup(ifs) {
          FilterNoDup(ifs, p);
        }
      }
      Failure(Ambiguous(FullName(u, t)))
  }

  /** Assignability being transitive and antisymmetric, every non-empty set
      of interfaces has a most-derived member. */
  lemma {:induction false} MostDerivedExists(u: Universe, s: seq<TypeId>)
    requires AssignableTransitive(u) && AssignableAntisymmetric(u)
    requires |s| > 0
    ensures exists m :: m in s && MostDerived(u, s, m)
  {
    if |s| == 1 {
      assert MostDerived(u, s, s[0]);
    } else {
      var rest := s[1..];
      MostDerivedExists(u, rest);
      var m :| m in rest && MostDerived(u, rest, m);
      var a := s[0];
      assert forall o :: o in s ==> o == a || o in rest;
      if a == m || !Assignable(u, m, a) {
        assert MostDerived(u, s, m);
      } else {
        forall o | o in s ensures o == a || !Assignable(u, a, o) {
          if o != a && Assignable(u, a, o) {
            assert false;
          }
        }
        assert MostDerived(u, s, a);
      }
    }
  }

  /** A type implementing any interface never falls back to registering as
      itself: it resolves to one of its interfaces or is ambiguous. */
  lemma ImplementingTypeResolvesToInterface(u: Universe, t: TypeId)
    requires AssignableTransitive(u) && AssignableAntisymmetric(u) && InterfacesAcyclic(u)
    requires |Interfaces(u, t)| > 0
    ensures GetDirectServiceType(u, t, Interfaces(u, t)).Success? ==>
      GetDirectServiceType(u, t, Interfaces(u, t)).value in Interfaces(u, t)
    ensures GetDirectServiceType(u, t, Interfaces(u, t)) != Success(t)
  {
    MostDerivedExists(u, Interfaces(u, t));
    NotOwnInterface(u, t);
  }

  /** An interface that extends every other interface of the type is its
      contract: `IMyService` for a type implementing `IMyService : IBaseService`,
      whether it implements it itself or through its base type. */
  lemma ExtendingInterfaceWins(u: Universe, t: TypeId, i: TypeId)
    requires AssignableExtends(u) && AssignableAntisymmetric(u) && InterfacesDistinct(u)
    requires i in Interfaces(u, t)
    requires forall o :: o in Interfaces(u, t) && o != i ==> o in Interfaces(u, i)
    ensures GetDirectServiceType(u, t, Interfaces(u, t)) == Success(i)
  {
    var ifs := Interfaces(u, t);
    var p := (x: TypeId) => MostDerived(u, ifs, x);
    forall o | o in ifs ensures o == i || !Assignable(u, i, o) {
      if o != i {
        assert o in Interfaces(u, i);
      }
    }
    forall j | j in ifs && p(j) ensures j == i {
    }
    assert NoDup(ifs);
    SingletonFilter(ifs, p, i);
  }

  /** `DetermineServiceType(type, attribute)`: the override is returned
      exactly as given, generic or not; an inferred contract that is generic
      is replaced by its generic type definition. */
  function DetermineServiceType(u: Universe, t: TypeId, a: Attr): (r: Result<TypeId, Error>)
    ensures a.serviceType.Some? ==> r == Success(a.serviceType.value)
    ensures a.serviceType.None? ==>
      (r.Success? <==> GetDirectServiceType(u, t, Interfaces(u, t)).Success?)
    ensures a.serviceType.None? && r.Success? ==>
      var c := GetDirectServiceType(u, t, Interfaces(u, t)).value;
      (IsGeneric(u, c) ==> r.value == GenericDef(u, c)) && (!IsGeneric(u, c) ==> r.value == c)
    ensures r.Failure? ==> a.serviceType.None? && r.error == Ambiguous(FullName(u, t))
  {
    var st :- match a.serviceType
      case Some(s) => Success(s)
      case None => GetDirectServiceType(u, t, Interfaces(u, t));
    if IsGeneric(u, st) && a.serviceType.None? then Success(GenericDef(u, st)) else Success(st)
  }

  /** An inferred contract is never a closed generic type: it is either not
      generic or its own generic definition (for a generic class without
      interfaces, the open class itself). */
  lemma InferredContractIsOpen(u: Universe, t: TypeId, a: Attr)
    requires GenericDefinitionsStable(u)
    requires a.serviceType.None?
    requires DetermineServiceType(u, t, a).Success?
    ensures IsGeneric(u, DetermineServiceType(u, t, a).value) ==>
      GenericDef(u, DetermineServiceType(u, t, a).value) == DetermineServiceType(u, t, a).value
  {
  }

  /** An override is never normalised, even when it is a closed generic. */
  lemma OverrideKeptWhenClosedGeneric(u: Universe, t: TypeId, a: Attr)
    requires a.serviceType.Some?
    requires IsGeneric(u, a.serviceType.value) && GenericDef(u, a.serviceType.value) != a.serviceType.value
    ensures DetermineServiceType(u, t, a) == Success(a.serviceType.value)
    ensures GenericDef(u, DetermineServiceType(u, t, a).value) != DetermineServiceType(u, t, a).value
  {
  }

  /** The `FirstOrDefault` predicate of the keyed branch, made total: same
      contract, and `KeyedImplementationType` either throws or names a type
      whose declared marker key equals `key`. */
  predicate KeyedStops(u: Universe, h: Accessors, st: TypeId, key: Option<string>, d: Descriptor) {
    d.contract == st &&
    match KeyedImplementationType(h, d)
    case Failure(_) => true
    case Success(it) => it.Some? && DeclaredKey(u, it.value) == key
  }

  /** `GetConflictingService(serviceType, key)`. Without a key: the
      `ImplementationType` of the first descriptor with the same contract,
      whatever that descriptor's key. With a key: the
      `KeyedImplementationType` of the first same-contract descriptor whose
      implementation's declared marker key equals the key, or, under a host
      whose keyed accessor throws on unkeyed descriptors, the fault of the
      first same-contract descriptor whose `KeyedImplementationType` throws;
      the descriptor's own key is not consulted. */
  function GetConflictingService(
    u: Universe, h: Accessors, reg: seq<Descriptor>, st: TypeId, key: Option<string>): (r: Result<Option<TypeId>, Error>)
    ensures key.None? ==>
      forall k :: 0 <= k < |reg| && reg[k].contract == st && (forall j :: 0 <= j < k ==> reg[j].contract != st)
                  ==> r == ImplementationType(h, reg[k])
    ensures key.None? && (forall k :: 0 <= k < |reg| ==> reg[k].contract != st) ==> r == Success(None)
    ensures key.Some? ==>
      forall k :: 0 <= k < |reg| && KeyedStops(u, h, st, key, reg[k]) &&
                  (forall j :: 0 <= j < k ==> !KeyedStops(u, h, st, key, reg[j]))
                  ==> r == KeyedImplementationType(h, reg[k])
    ensures key.Some? && (forall k :: 0 <= k < |reg| ==> !KeyedStops(u, h, st, key, reg[k])) ==> r == Success(None)
    ensures key.Some? && r.Success? && r.value.Some? ==>
      exists k :: 0 <= k < |reg| && reg[k].contract == st && reg[k].impl == r.value && DeclaredKey(u, r.value.value) == key
  {
    if key.None? then
      var i := FirstIndex(reg, (d: Descriptor) => d.contract == st);
      if i == |reg| then Success(None) else ImplementationType(h, reg[i])
    else
      var i := FirstIndex(reg, (d: Descriptor) => KeyedStops(u, h, st, key, d));
      if i == |reg| then Success(None)
      else
        assert KeyedStops(u, h, st, key, reg[i]);
        KeyedImplementationType(h, reg[i])
  }

  /** `ValidateNoConflict(serviceType, key, type)`: passes exactly when the
      conflict check finds nothing, and otherwise raises the duplicate error
      naming the type, the conflicting type, the contract and the key. */
  function ValidateNoConflict(
    u: Universe, h: Accessors, reg: seq<Descriptor>, st: TypeId, key: Option<string>, t: TypeId): (r: Result<(), Error>)
    ensures r.Success? <==> GetConflictingService(u, h, reg, st, key) == Success(None)
    ensures r.Failure? ==>
      || GetConflictingService(u, h, reg, st, key) == Failure(r.error)
      || (r.error.Duplicate? && GetConflictingService(u, h, reg, st, key) == Success(Some(r.error.existing)) && r.error == Duplicate(t, r.error.existing, st, key))
  {
    var conflicting :- GetConflictingService(u, h, reg, st, key);
    if conflicting.Some? then Failure(Duplicate(t, conflicting.value, st, key)) else Success(())
  }

  /** `Generate(serviceType, key, implementationType, lifetime)`: a keyed
      descriptor exactly when a key is given, registering `t` for the
      contract with the lifetime and key as given. */
  function Generate(st: TypeId, key: Option<string>, t: TypeId, lifetime: Lifetime): (d: Descriptor)
    ensures d.IsKeyed() <==> key.Some?
    ensures d.contract == st && d.key == key && d.impl == Some(t) && d.lifetime == lifetime
  {
    Descriptor(st, key, Some(t), lifetime)
  }

  /** Whatever the host does on the other kind, the accessor of a generated
      descriptor's own kind reports its implementation type, so the conflict
      check of a later step can see it. */
  lemma GeneratedReportsType(h: Accessors, st: TypeId, key: Option<string>, t: TypeId, lifetime: Lifetime)
    ensures key.None? ==> ImplementationType(h, Generate(st, key, t, lifetime)) == Success(Some(t))
    ensures key.Some? ==> KeyedImplementationType(h, Generate(st, key, t, lifetime)) == Success(Some(t))
  {
  }

  /** `RegisterService(type)` for a marked type: a success appends exactly one
      descriptor carrying the contract, the derived key, the type and the
      declared lifetime, and leaves the earlier descriptors as they were; a
      duplicate names the type, its contract and its derived key. */
  function RegisterService(u: Universe, h: Accessors, reg: seq<Descriptor>, t: TypeId): (r: Result<seq<Descriptor>, Error>)
    requires IsMarked(u, t)
    ensures r.Success? ==>
      && DetermineServiceType(u, t, AutoInjectAttr(u, t).value).Success?
      && r.value == reg + [Descriptor(DetermineServiceType(u, t, AutoInjectAttr(u, t).value).value,
                                      GetKey(u, t), Some(t), AutoInjectAttr(u, t).value.lifetime)]
    ensures r.Failure? && r.error.Duplicate? ==>
      && r.error.newType == t
      && DetermineServiceType(u, t, AutoInjectAttr(u, t).value) == Success(r.error.contract)
      && r.error.key == GetKey(u, t)
  {
    var key := GetKey(u, t);
    var a := AutoInjectAttr(u, t).value;
    var st :- DetermineServiceType(u, t, a);
    var _ :- ValidateNoConflict(u, h, reg, st, key, t);
    Success(reg + [Generate(st, key, t, a.lifetime)])
  }

  /** How the conflict check decides a step: the step succeeds exactly when
      the contract resolves and the check finds nothing; a duplicate's
      existing type is what the check reported. */
  lemma RegisterServiceOutcome(u: Universe, h: Accessors, reg: seq<Descriptor>, t: TypeId)
    requires IsMarked(u, t)
    ensures RegisterService(u, h, reg, t).Success? <==>
      DetermineServiceType(u, t, AutoInjectAttr(u, t).value).Success? &&
      GetConflictingService(u, h, reg, DetermineServiceType(u, t, AutoInjectAttr(u, t).value).value, GetKey(u, t))
        == Success(None)
    ensures RegisterService(u, h, reg, t).Failure? && RegisterService(u, h, reg, t).error.Duplicate? ==>
      GetConflictingService(u, h, reg, RegisterService(u, h, reg, t).error.contract, GetKey(u, t))
        == Success(Some(RegisterService(u, h, reg, t).error.existing))
    ensures RegisterService(u, h, reg, t).Failure? && !RegisterService(u, h, reg, t).error.Duplicate? ==>
      RegisterService(u, h, reg, t).error in {Ambiguous(FullName(u, t)), AccessorFault}
  {
  }

  /** A successful step grows the collection by one descriptor for the
      type, after the untouched earlier ones. */
  lemma RegisterServiceAppends(u: Universe, h: Accessors, reg: seq<Descriptor>, t: TypeId)
    requires IsMarked(u, t)
    ensures RegisterService(u, h, reg, t).Success? ==>
      var next := RegisterService(u, h, reg, t).value;
      |next| == |reg| + 1 && next[..|reg|] == reg && next[|reg|].impl == Some(t)
  {
  }

  /** Into an empty collection a type whose contract resolves always
      registers, as the single descriptor for it. */
  lemma FirstRegistrationSucceeds(u: Universe, h: Accessors, t: TypeId)
    requires IsMarked(u, t) && DetermineServiceType(u, t, AutoInjectAttr(u, t).value).Success?
    ensures RegisterService(u, h, [], t)
      == Success([Descriptor(DetermineServiceType(u, t, AutoInjectAttr(u, t).value).value,
                             GetKey(u, t), Some(t), AutoInjectAttr(u, t).value.lifetime)])
  {
    var st := DetermineServiceType(u, t, AutoInjectAttr(u, t).value).value;
    assert GetConflictingService(u, h, [], st, GetKey(u, t)) == Success(None);
    RegisterServiceOutcome(u, h, [], t);
    var d := Descriptor(st, GetKey(u, t), Some(t), AutoInjectAttr(u, t).value.lifetime);
    assert RegisterService(u, h, [], t).value == [] + [d];
    assert [] + [d] == [d];
  }

  /** `RegisterService` as the step of the scan over an assembly. */
  function RegisterStep(u: Universe, h: Accessors): Step {
    (reg: seq<Descriptor>, t: TypeId) requires IsMarked(u, t) => RegisterService(u, h, reg, t)
  }

  /** On the candidates the step is `RegisterService`, which appends one
      descriptor for the candidate. */
  lemma RegisterStepAppends(u: Universe, h: Accessors, cands: seq<TypeId>)
    requires forall t :: t in cands ==> IsMarked(u, t)
    ensures Appends(RegisterStep(u, h), cands)
  {
    forall reg: seq<Descriptor>, t: TypeId | t in cands
      ensures RegisterStep(u, h).requires(reg, t)
      ensures RegisterStep(u, h)(reg, t) == RegisterService(u, h, reg, t)
    {
      RegisterServiceAppends(u, h, reg, t);
    }
  }

  /** The `foreach` over the candidates: each is registered in turn, and the
      first failure stops the scan without undoing earlier appends. */
  function RegisterAll(u: Universe, h: Accessors, reg: seq<Descriptor>, cands: seq<TypeId>): (r: Scan)
    requires forall t :: t in cands ==> IsMarked(u, t)
    ensures |reg| <= |r.registry| <= |reg| + |cands| && r.registry[..|reg|] == reg
    ensures forall k :: |reg| <= k < |r.registry| ==> r.registry[k].impl == Some(cands[k - |reg|])
    ensures r.failure.None? <==> |r.registry| == |reg| + |cands|
  {
    RegisterStepAppends(u, h, cands);
    Fold(RegisterStep(u, h), reg, cands)
  }

  /** A scan that stops does so at the candidate right after the last one it
      appended, and reports exactly the error that candidate's step raised
      against the collection as it then stood. */
  lemma ScanStopsAtFirstFailure(u: Universe, h: Accessors, reg: seq<Descriptor>, cands: seq<TypeId>)
    requires forall t :: t in cands ==> IsMarked(u, t)
    ensures var r := RegisterAll(u, h, reg, cands);
      r.failure.Some? ==>
        RegisterService(u, h, r.registry, cands[|r.registry| - |reg|]) == Failure(r.failure.value)
  {
    RegisterStepAppends(u, h, cands);
    var r := RegisterAll(u, h, reg, cands);
    assert r == Fold(RegisterStep(u, h), reg, cands);
    FoldStopsAtFirstFailure(RegisterStep(u, h), reg, cands);
    if r.failure.Some? {
      var t := cands[|r.registry| - |reg|];
      assert RegisterStep(u, h)(r.registry, t) == RegisterService(u, h, r.registry, t);
      assert RegisterService(u, h, r.registry, t) == Failure(r.failure.value);
    }
  }

  /** Every descriptor a scan appends is what `RegisterService` produced for
      its candidate against the collection as it stood just before. */
  lemma ScanAppendsEachStep(u: Universe, h: Accessors, reg: seq<Descriptor>, cands: seq<TypeId>, k: nat)
    requires forall t :: t in cands ==> IsMarked(u, t)
    requires |reg| <= k < |RegisterAll(u, h, reg, cands).registry|
    ensures var r := RegisterAll(u, h, reg, cands).registry;
      RegisterService(u, h, r[..k], cands[k - |reg|]) == Success(r[..k + 1])
  {
    RegisterStepAppends(u, h, cands);
    FoldStepsInOrder(RegisterStep(u, h), reg, cands, k);
  }

  /** Descriptors appended in the order of the candidates name candidates of
      the assembly. */
  lemma AppendedAreCandidates(u: Universe, types: seq<TypeId>, reg: seq<Descriptor>, out: seq<Descriptor>)
    requires |reg| <= |out| <= |reg| + |Candidates(u, types)|
    requires forall k :: |reg| <= k < |out| ==> out[k].impl == Some(Candidates(u, types)[k - |reg|])
    ensures forall k :: |reg| <= k < |out| ==>
      out[k].impl.Some? && out[k].impl.value in types && IsCandidate(u, out[k].impl.value)
  {
    var cands := Candidates(u, types);
    forall k | |reg| <= k < |out|
      ensures out[k].impl.Some? && out[k].impl.value in types && IsCandidate(u, out[k].impl.value)
    {
      assert out[k].impl == Some(cands[k - |reg|]) && cands[k - |reg|] in cands;
    }
  }

  /** `RegisterFromAssembly(assembly)`, the assembly given as its types in
      `GetTypes()` order: the candidates are registered in that order, and a
      scan without failure registers all of them. */
  function RegisterFromAssembly(u: Universe, h: Accessors, reg: seq<Descriptor>, types: seq<TypeId>): (r: Scan)
    ensures |reg| <= |r.registry| <= |reg| + |Candidates(u, types)| && r.registry[..|reg|] == reg
    ensures forall k :: |reg| <= k < |r.registry| ==> r.registry[k].impl == Some(Candidates(u, types)[k - |reg|])
    ensures forall k :: |reg| <= k < |r.registry| ==>
      r.registry[k].impl.Some? && r.registry[k].impl.value in types && IsCandidate(u, r.registry[k].impl.value)
    ensures r.failure.None? ==> |r.registry| == |reg| + |Candidates(u, types)|
  {
    var cands := Candidates(u, types);
    var r := RegisterAll(u, h, reg, cands);
    AppendedAreCandidates(u, types, reg, r.registry);
    r
  }

  // Scenarios of the conflict check as written.

  /** Two unkeyed types with one contract: the second is rejected, naming the
      first, whatever the host's accessors do. */
  lemma SameContractUnkeyedIsDuplicate(u: Universe, h: Accessors, a: TypeId, b: TypeId, c: TypeId)
    requires IsMarked(u, a) && !AutoInjectAttr(u, a).value.keyed
    requires IsMarked(u, b) && !AutoInjectAttr(u, b).value.keyed
    requires DetermineServiceType(u, a, AutoInjectAttr(u, a).value) == Success(c)
    requires DetermineServiceType(u, b, AutoInjectAttr(u, b).value) == Success(c)
    ensures RegisterService(u, h, [], a).Success?
    ensures RegisterService(u, h, RegisterService(u, h, [], a).value, b) == Failure(Duplicate(b, a, c, None))
  {
    FirstRegistrationSucceeds(u, h, a);
    var r1 := RegisterService(u, h, [], a).value;
    assert r1[0].contract == c && !r1[0].IsKeyed();
  }

  /** Keyed types whose simple names differ share a contract without
      conflict, and the collection stays unique. */
  lemma DistinctKeyedNamesCoexist(u: Universe, h: Accessors, a: TypeId, b: TypeId, c: TypeId)
    requires MarkersConstructible(u)
    requires KeyedAutoInjectAttr(u, a).Some? && KeyedAutoInjectAttr(u, b).Some?
    requires Name(u, a) != Name(u, b)
    requires DetermineServiceType(u, a, AutoInjectAttr(u, a).value) == Success(c)
    requires DetermineServiceType(u, b, AutoInjectAttr(u, b).value) == Success(c)
    ensures RegisterService(u, h, [], a).Success?
    ensures RegisterService(u, h, RegisterService(u, h, [], a).value, b).Success?
    ensures Unique(RegisterService(u, h, RegisterService(u, h, [], a).value, b).value)
  {
    FirstRegistrationSucceeds(u, h, a);
    var r1 := RegisterService(u, h, [], a).value;
    KeyedDeclaresNoKey(u, a);
    assert !KeyedStops(u, h, c, Some(Name(u, b)), r1[0]);
    var r2 := RegisterService(u, h, r1, b).value;
    assert r2[0].key != r2[1].key;
  }

  /** The unkeyed branch does keep the collection unique, as long as the host
      does not hide keyed descriptors from `ImplementationType`: any earlier
      descriptor with the same contract, keyed or not, stops the check. */
  lemma UnkeyedStepKeepsUnique(u: Universe, h: Accessors, reg: seq<Descriptor>, t: TypeId)
    requires IsMarked(u, t) && KeyedAutoInjectAttr(u, t).None?
    requires h.plainOnKeyed != Hides
    requires Unique(reg) && forall k :: 0 <= k < |reg| ==> reg[k].impl.Some?
    ensures RegisterService(u, h, reg, t).Success? ==> Unique(RegisterService(u, h, reg, t).value)
  {
    if RegisterService(u, h, reg, t).Success? {
      var st := DetermineServiceType(u, t, AutoInjectAttr(u, t).value).value;
      RegisterServiceOutcome(u, h, reg, t);
      assert forall k :: 0 <= k < |reg| ==> reg[k].contract != st;
      AppendUnique(reg, Generate(st, None, t, AutoInjectAttr(u, t).value.lifetime));
    }
  }

  /** The implementation-type precondition above is needed: a descriptor
      registered by other code with a factory or an instance has no
      implementation type, so `ImplementationType` is `null` at the first
      same-contract descriptor and the unkeyed branch finds no conflict. An
      unkeyed type with that contract registers beside it, under the same
      contract and key. */
  lemma FactoryDescriptorAdmitsDuplicate(u: Universe, h: Accessors, t: TypeId, c: TypeId, lt: Lifetime)
    requires IsMarked(u, t) && KeyedAutoInjectAttr(u, t).None?
    requires DetermineServiceType(u, t, AutoInjectAttr(u, t).value) == Success(c)
    ensures RegisterService(u, h, [Descriptor(c, None, None, lt)], t).Success?
    ensures !Unique(RegisterService(u, h, [Descriptor(c, None, None, lt)], t).value)
  {
    var reg := [Descriptor(c, None, None, lt)];
    assert GetConflictingService(u, h, reg, c, None) == Success(None);
    RegisterServiceOutcome(u, h, reg, t);
    var r := RegisterService(u, h, reg, t).value;
    assert r[0].contract == r[1].contract && r[0].key == r[1].key;
  }

  /** As written, the keyed branch compares the key with the key declared on
      the existing implementation type's marker, which a keyed marker never
      carries. So two keyed types with the same simple name and contract both
      register, and the collection ends with two descriptors that share
      contract and key. */
  lemma KeyedNameClashAdmitted(u: Universe, h: Accessors, a: TypeId, b: TypeId, c: TypeId)
    requires MarkersConstructible(u)
    requires KeyedAutoInjectAttr(u, a).Some? && KeyedAutoInjectAttr(u, b).Some?
    requires Name(u, a) == Name(u, b)
    requires DetermineServiceType(u, a, AutoInjectAttr(u, a).value) == Success(c)
    requires DetermineServiceType(u, b, AutoInjectAttr(u, b).value) == Success(c)
    ensures RegisterService(u, h, [], a).Success?
    ensures RegisterService(u, h, RegisterService(u, h, [], a).value, b).Success?
    ensures !Unique(RegisterService(u, h, RegisterService(u, h, [], a).value, b).value)
  {
    FirstRegistrationSucceeds(u, h, a);
    var r1 := RegisterService(u, h, [], a).value;
    KeyedDeclaresNoKey(u, a);
    assert !KeyedStops(u, h, c, Some(Name(u, b)), r1[0]);
    var r2 := RegisterService(u, h, r1, b).value;
    assert r2[0].contract == r2[1].contract && r2[0].key == r2[1].key;
  }

  /** As written, the unkeyed branch stops at the first descriptor with the
      same contract whatever its key. An unkeyed type registered after a keyed
      one with the same contract is rejected as a duplicate of it (host
      exposes) or fails inside the accessor (host throws), although the two
      keys differ. */
  lemma UnkeyedAfterKeyedRejected(u: Universe, h: Accessors, a: TypeId, b: TypeId, c: TypeId)
    requires KeyedAutoInjectAttr(u, a).Some?
    requires IsMarked(u, b) && KeyedAutoInjectAttr(u, b).None?
    requires DetermineServiceType(u, a, AutoInjectAttr(u, a).value) == Success(c)
    requires DetermineServiceType(u, b, AutoInjectAttr(u, b).value) == Success(c)
    requires h.plainOnKeyed != Hides
    ensures GetKey(u, a) != GetKey(u, b)
    ensures RegisterService(u, h, [], a).Success?
    ensures h.plainOnKeyed == Exposes ==>
      RegisterService(u, h, RegisterService(u, h, [], a).value, b) == Failure(Duplicate(b, a, c, None))
    ensures h.plainOnKeyed == Throws ==>
      RegisterService(u, h, RegisterService(u, h, [], a).value, b) == Failure(AccessorFault)
  {
    FirstRegistrationSucceeds(u, h, a);
    var r1 := RegisterService(u, h, [], a).value;
    assert r1[0].contract == c && r1[0].IsKeyed();
  }

  /** The reverse order: a keyed type after an unkeyed one with the same
      contract faults under a host whose `KeyedImplementationType` throws on
      unkeyed descriptors, since the keyed branch reads that accessor on
      every same-contract descriptor it passes. */
  lemma KeyedAfterUnkeyedFaults(u: Universe, h: Accessors, a: TypeId, b: TypeId, c: TypeId)
    requires IsMarked(u, a) && KeyedAutoInjectAttr(u, a).None?
    requires KeyedAutoInjectAttr(u, b).Some?
    requires DetermineServiceType(u, a, AutoInjectAttr(u, a).value) == Success(c)
    requires DetermineServiceType(u, b, AutoInjectAttr(u, b).value) == Success(c)
    requires h.keyedOnPlain == Throws
    ensures RegisterService(u, h, [], a).Success?
    ensures RegisterService(u, h, RegisterService(u, h, [], a).value, b) == Failure(AccessorFault)
  {
    FirstRegistrationSucceeds(u, h, a);
    var r1 := RegisterService(u, h, [], a).value;
    assert r1[0].contract == c && !r1[0].IsKeyed();
  }

  /** Under a host that hides keyed descriptors from `ImplementationType`,
      an earlier keyed descriptor with the contract comes first and answers
      `null`, so the unkeyed branch stops there: a second unkeyed type with
      the same contract registers too, and the collection ends with two
      descriptors that share contract and key. */
  lemma HidingHostAdmitsUnkeyedDuplicates(u: Universe, h: Accessors, a: TypeId, b: TypeId, b2: TypeId, c: TypeId)
    requires KeyedAutoInjectAttr(u, a).Some?
    requires IsMarked(u, b) && KeyedAutoInjectAttr(u, b).None?
    requires IsMarked(u, b2) && KeyedAutoInjectAttr(u, b2).None?
    requires DetermineServiceType(u, a, AutoInjectAttr(u, a).value) == Success(c)
    requires DetermineServiceType(u, b, AutoInjectAttr(u, b).value) == Success(c)
    requires DetermineServiceType(u, b2, AutoInjectAttr(u, b2).value) == Success(c)
    requires h.plainOnKeyed == Hides
    ensures var da := Descriptor(c, Some(Name(u, a)), Some(a), AutoInjectAttr(u, a).value.lifetime);
      var db := Descriptor(c, None, Some(b), AutoInjectAttr(u, b).value.lifetime);
      var db2 := Descriptor(c, None, Some(b2), AutoInjectAttr(u, b2).value.lifetime);
      && RegisterService(u, h, [], a) == Success([da])
      && RegisterService(u, h, [da], b) == Success([da, db])
      && RegisterService(u, h, [da, db], b2) == Success([da, db, db2])
      && !Unique([da, db, db2])
  {
    var da := Descriptor(c, Some(Name(u, a)), Some(a), AutoInjectAttr(u, a).value.lifetime);
    var db := Descriptor(c, None, Some(b), AutoInjectAttr(u, b).value.lifetime);
    var db2 := Descriptor(c, None, Some(b2), AutoInjectAttr(u, b2).value.lifetime);
    FirstRegistrationSucceeds(u, h, a);
    assert GetConflictingService(u, h, [da], c, None) == Success(None);
    RegisterServiceOutcome(u, h, [da], b);
    assert [da] + [db] == [da, db];
    assert GetConflictingService(u, h, [da, db], c, None) == Success(None);
    RegisterServiceOutcome(u, h, [da, db], b2);
    assert [da, db] + [db2] == [da, db, db2];
    assert [da, db, db2][1] == db && [da, db, db2][2] == db2;
  }


  // The conflict check as evidently intended.

  /** A conflict is an earlier descriptor with an implementation type, the
      same contract and the same key, the key read from the descriptor
      itself rather than from a marker. The result is that descriptor's
      implementation type, found without either host accessor. */
  function GetConflictingServiceByKey(reg: seq<Descriptor>, st: TypeId, key: Option<string>): (r: Option<TypeId>)
    ensures r.Some? ==>
      exists k :: 0 <= k < |reg| && reg[k].contract == st && reg[k].key == key && reg[k].impl == r
    ensures r.None? <==>
      forall k :: 0 <= k < |reg| && reg[k].contract == st && reg[k].key == key ==> reg[k].impl.None?
  {
    var i := FirstIndex(reg, (d: Descriptor) => d.contract == st && d.key == key && d.impl.Some?);
    if i == |reg| then None else reg[i].impl
  }

  /** `RegisterService(type)` with the intended conflict check. */
  function RegisterServiceByKey(u: Universe, reg: seq<Descriptor>, t: TypeId): (r: Result<seq<Descriptor>, Error>)
    requires IsMarked(u, t)
    ensures r.Success? ==>
      && DetermineServiceType(u, t, AutoInjectAttr(u, t).value).Success?
      && r.value == reg + [Descriptor(DetermineServiceType(u, t, AutoInjectAttr(u, t).value).value,
                                      GetKey(u, t), Some(t), AutoInjectAttr(u, t).value.lifetime)]
    ensures r.Failure? && r.error.Duplicate? ==>
      && r.error.newType == t
      && DetermineServiceType(u, t, AutoInjectAttr(u, t).value) == Success(r.error.contract)
      && r.error.key == GetKey(u, t)
      && exists k :: 0 <= k < |reg| && reg[k].contract == r.error.contract && reg[k].key == r.error.key
                     && reg[k].impl == Some(r.error.existing)
    ensures r.Failure? && !r.error.Duplicate? ==> r.error == Ambiguous(FullName(u, t))
  {
    var key := GetKey(u, t);
    var a := AutoInjectAttr(u, t).value;
    var st :- DetermineServiceType(u, t, a);
    var conflicting := GetConflictingServiceByKey(reg, st, key);
    if conflicting.Some? then Failure(Duplicate(t, conflicting.value, st, key))
    else Success(reg + [Generate(st, key, t, a.lifetime)])
  }

  /** With the intended check a resolved type registers exactly when no
      earlier descriptor with an implementation shares its contract and key. */
  lemma RegisterServiceByKeyDecides(u: Universe, reg: seq<Descriptor>, t: TypeId)
    requires IsMarked(u, t)
    requires DetermineServiceType(u, t, AutoInjectAttr(u, t).value).Success?
    ensures RegisterServiceByKey(u, reg, t).Success? <==>
      forall k :: 0 <= k < |reg| && reg[k].impl.Some? ==>
        reg[k].contract != DetermineServiceType(u, t, AutoInjectAttr(u, t).value).value || reg[k].key != GetKey(u, t)
  {
  }

  /** The intended check keeps the central invariant on every step. */
  lemma RegisterServiceByKeyKeepsUnique(u: Universe, reg: seq<Descriptor>, t: TypeId)
    requires IsMarked(u, t)
    requires Unique(reg) && forall k :: 0 <= k < |reg| ==> reg[k].impl.Some?
    ensures RegisterServiceByKey(u, reg, t).Success? ==>
      && Unique(RegisterServiceByKey(u, reg, t).value)
      && forall k :: 0 <= k < |RegisterServiceByKey(u, reg, t).value| ==> RegisterServiceByKey(u, reg, t).value[k].impl.Some?
  {
    if RegisterServiceByKey(u, reg, t).Success? {
      RegisterServiceByKeyDecides(u, reg, t);
      var st := DetermineServiceType(u, t, AutoInjectAttr(u, t).value).value;
      AppendUnique(reg, Generate(st, GetKey(u, t), t, AutoInjectAttr(u, t).value.lifetime));
    }
  }

  /** Two keyed types with one simple name and contract: with the intended
      check the second is rejected, naming the first. */
  lemma KeyedNameClashRejectedByKey(u: Universe, a: TypeId, b: TypeId, c: TypeId)
    requires KeyedAutoInjectAttr(u, a).Some? && KeyedAutoInjectAttr(u, b).Some?
    requires Name(u, a) == Name(u, b)
    requires DetermineServiceType(u, a, AutoInjectAttr(u, a).value) == Success(c)
    requires DetermineServiceType(u, b, AutoInjectAttr(u, b).value) == Success(c)
    ensures RegisterServiceByKey(u, [], a).Success?
    ensures RegisterServiceByKey(u, RegisterServiceByKey(u, [], a).value, b) == Failure(Duplicate(b, a, c, Some(Name(u, b))))
  {
    var r1 := RegisterServiceByKey(u, [], a).value;
    assert r1[0].contract == c && r1[0].key == Some(Name(u, b));
  }

  /** An unkeyed type after a keyed one with the same contract: with the
      intended check both register, whatever the host's accessors do. */
  lemma UnkeyedAfterKeyedAdmittedByKey(u: Universe, a: TypeId, b: TypeId, c: TypeId)
    requires KeyedAutoInjectAttr(u, a).Some?
    requires IsMarked(u, b) && KeyedAutoInjectAttr(u, b).None?
    requires DetermineServiceType(u, a, AutoInjectAttr(u, a).value) == Success(c)
    requires DetermineServiceType(u, b, AutoInjectAttr(u, b).value) == Success(c)
    ensures RegisterServiceByKey(u, [], a).Success?
    ensures RegisterServiceByKey(u, RegisterServiceByKey(u, [], a).value, b).Success?
  {
    var r1 := RegisterServiceByKey(u, [], a).value;
    assert r1[0].key.Some?;
  }

  /** `RegisterServiceByKey` as the step of the scan. */
  function RegisterStepByKey(u: Universe): Step {
    (reg: seq<Descriptor>, t: TypeId) requires IsMarked(u, t) => RegisterServiceByKey(u, reg, t)
  }

  /** On the candidates the step is `RegisterServiceByKey`, which appends one
      descriptor for the candidate. */
  lemma RegisterStepByKeyAppends(u: Universe, cands: seq<TypeId>)
    requires forall t :: t in cands ==> IsMarked(u, t)
    ensures Appends(RegisterStepByKey(u), cands)
  {
    forall reg: seq<Descriptor>, t: TypeId | t in cands
      ensures RegisterStepByKey(u).requires(reg, t)
      ensures RegisterStepByKey(u)(reg, t) == RegisterServiceByKey(u, reg, t)
    {
    }
  }

  /** The scan with the intended check: stops at the first failure, keeping
      the earlier appends. */
  function RegisterAllByKey(u: Universe, reg: seq<Descriptor>, cands: seq<TypeId>): (r: Scan)
    requires forall t :: t in cands ==> IsMarked(u, t)
    ensures |reg| <= |r.registry| <= |reg| + |cands| && r.registry[..|reg|] == reg
    ensures forall k :: |reg| <= k < |r.registry| ==> r.registry[k].impl == Some(cands[k - |reg|])
    ensures r.failure.None? <==> |r.registry| == |reg| + |cands|
  {
    RegisterStepByKeyAppends(u, cands);
    Fold(RegisterStepByKey(u), reg, cands)
  }

  /** Whatever the scan meets, with the intended check the collection stays
      unique: a failed step appends nothing. */
  lemma RegisterAllByKeyKeepsUnique(u: Universe, reg: seq<Descriptor>, cands: seq<TypeId>)
    requires forall t :: t in cands ==> IsMarked(u, t)
    requires Unique(reg) && forall k :: 0 <= k < |reg| ==> reg[k].impl.Some?
    ensures Unique(RegisterAllByKey(u, reg, cands).registry)
  {
    RegisterStepByKeyAppends(u, cands);
    var step := RegisterStepByKey(u);
    var inv := (r: seq<Descriptor>) => Unique(r) && forall k :: 0 <= k < |r| ==> r[k].impl.Some?;
    forall r: seq<Descriptor>, t: TypeId | t in cands && inv(r) && step.requires(r, t) && step(r, t).Success?
      ensures inv(step(r, t).value)
    {
      RegisterServiceByKeyKeepsUnique(u, r, t);
    }
    FoldPreserves(step, inv, reg, cands);
  }

  /** The same, for a collection that may not start out unique. */
  lemma ScanByKeyKeepsUniqueFrom(u: Universe, reg: seq<Descriptor>, cands: seq<TypeId>)
    requires forall t :: t in cands ==> IsMarked(u, t)
    ensures Unique(reg) && (forall k :: 0 <= k < |reg| ==> reg[k].impl.Some?) ==>
      Unique(RegisterAllByKey(u, reg, cands).registry)
  {
    if Unique(reg) && (forall k :: 0 <= k < |reg| ==> reg[k].impl.Some?) {
      RegisterAllByKeyKeepsUnique(u, reg, cands);
    }
  }

  /** Every descriptor the scan with the intended check appends is what
      `RegisterServiceByKey` produced for its candidate against the
      collection as it stood just before. */
  lemma ScanByKeyAppendsEachStep(u: Universe, reg: seq<Descriptor>, cands: seq<TypeId>, k: nat)
    requires forall t :: t in cands ==> IsMarked(u, t)
    requires |reg| <= k < |RegisterAllByKey(u, reg, cands).registry|
    ensures var r := RegisterAllByKey(u, reg, cands).registry;
      RegisterServiceByKey(u, r[..k], cands[k - |reg|]) == Success(r[..k + 1])
  {
    RegisterStepByKeyAppends(u, cands);
    FoldStepsInOrder(RegisterStepByKey(u), reg, cands, k);
  }

  /** `RegisterFromAssembly(assembly)` with the intended check: the
      candidates are registered in order, and a collection that starts with
      no two descriptors sharing contract and key ends that way too. */
  function RegisterFromAssemblyByKey(u: Universe, reg: seq<Descriptor>, types: seq<TypeId>): (r: Scan)
    ensures |reg| <= |r.registry| <= |reg| + |Candidates(u, types)| && r.registry[..|reg|] == reg
    ensures forall k :: |reg| <= k < |r.registry| ==> r.registry[k].impl == Some(Candidates(u, types)[k - |reg|])
    ensures forall k :: |reg| <= k < |r.registry| ==>
      r.registry[k].impl.Some? && r.registry[k].impl.value in types && IsCandidate(u, r.registry[k].impl.value)
    ensures r.failure.None? ==> |r.registry| == |reg| + |Candidates(u, types)|
    ensures Unique(reg) && (forall k :: 0 <= k < |reg| ==> reg[k].impl.Some?) ==> Unique(r.registry)
  {
    var cands := Candidates(u, types);
    ScanByKeyKeepsUniqueFrom(u, reg, cands);
    var r := RegisterAllByKey(u, reg, cands);
    AppendedAreCandidates(u, types, reg, r.registry);
    r
  }

}

=== FILE: wrappers.dfy ===
/** `Option` stands for a C# reference that may be `null`; `Result` for a
    call that either returns or throws one of the model's errors. */
module Wrappers {

  datatype Option<+T> = None | Some(value: T)

  /** `Result` supports `:-`, so a thrown error propagates to the caller as
      the C# exception does. */
  datatype Result<+R, +E> = Success(value: R) | Failure(error: E) {
    predicate IsFailure() {
      Failure?
    }

    function PropagateFailure<U>(): Result<U, E>
      requires Failure?
    {
      Failure(error)
    }

    function Extract(): R
      requires Success?
    {
      value
    }
  }
}
